=== FILE: README.md ===
# Catalog and accounts backend — a Dafny model

This project models the rules of a Django catalog and authentication backend as pure
functions over an in-memory store, and proves what those rules promise.

The catalog is a hierarchy: category > subcategory > sub-subcategory > product >
description block > description row, with category descriptions hanging off
sub-subcategories. The model covers:

- the `save()` hooks: slug derivation on the three category levels, and order allocation
  for description rows;
- the product write serializer: price/MSRP check, `product_type` choices, defaults;
- cascading deletes along the declared foreign keys;
- the nested read-model built by the serializers: active children only, each level in
  its `order_by` order;
- `ProductCategoryViewSet`: its list, retrieve, create, update and destroy handlers and
  its response shapes;
- the custom user model and the authentication endpoints: the one-time-code (OTP) state
  machine, login, social sign-in, change and reset password, and profile update.

Files, one module each:

| file | module | contents |
|---|---|---|
| `wrappers.dfy` | `Wrappers` | `Option`, `Result` |
| `ordering.dfy` | `Ordering` | filter, stable insertion sort, string and NULL-first orderings |
| `tables.dfy` | `Tables` | tables as sequences of records: lookup, upsert, fresh keys, uniqueness, cascade steps |
| `catalog_store.dfy` | `CatalogStore` | the catalog records and the store's integrity constraints |
| `catalog_write.dfy` | `CatalogWrite` | slugs, row order, product validation and creation |
| `catalog_cascade.dfy` | `CatalogCascade` | `delete()` with CASCADE, and the exact set a category delete removes |
| `catalog_read.dfy` | `CatalogRead` | the nested read-model and the category list queryset |
| `category_views.dfy` | `CategoryViews` | the category viewset and its response helpers |
| `accounts.dfy` | `Accounts` | the user record, its save hook, OTP strings, the user-table invariant |
| `auth_flows.dfy` | `AuthFlows` | the authentication endpoints as state transitions |

Modelling conventions:

- A table is a `seq` of records, each carrying its own key. Keys are `nat`s standing for
  UUIDs. A new key is one more than the largest key present.
- Money is an integer number of cents. Time is an integer number of microseconds.
- The framework's `slugify` is a function parameter. Password hashing is an injective
  wrapper: a stored hash accepts exactly the password it was made from.
- The clock (`now`), the random OTP draw and the outcome of sending mail are parameters.
- Python truthiness is written out: an empty string, a zero amount and `None` are false.

Two properties of `save()` on the category levels shape the write model:

- There is no collision-suffix loop. `save()` stores `slugify(name)` only when the slug is
  empty, and a clash with another row's slug is refused by the `unique=True` column. The
  model reports that refusal as `DuplicateSlug`.
- A name that slugifies to the empty string is stored with the empty slug.

## Model

| member | source | states |
|---|---|---|
| CatalogWrite.SlugOnSave | product/models.py:16-19 | a non-empty slug is kept verbatim; an empty one becomes `slugify(str(name))`, with a NULL name read as "None" |
| CatalogWrite.SlugStableAcrossSaves | product/models.py:16-19 | once a non-empty slug is stored, any later save keeps it, whatever the name becomes |
| CatalogWrite.SaveCategory | product/models.py:6-19 | the save fails with `DuplicateSlug` iff another category already holds the derived slug; on success the saved category is present, no other category is lost, nothing else changes, and the store's constraints still hold |
| CatalogWrite.SaveSubCategory | product/models.py:21-35 | as for categories, plus the foreign key: a save fails iff the derived slug is taken or the parent category does not exist; a taken slug is `DuplicateSlug`, and a free slug under a missing parent is `MissingParent` of that parent |
| CatalogWrite.SaveSubSubCategory | product/models.py:37-51 | as for subcategories, with the subcategory as parent: `DuplicateSlug` for a taken slug, otherwise `MissingParent` of the subcategory when it does not exist |
| CatalogWrite.SameSlugRejected | product/models.py:9 | two categories whose names slugify alike cannot both be stored: the second save fails, no suffix is added |
| CatalogWrite.MaxSiblingOrder | product/models.py:110-112 | the result bounds every order among the rows of the same description, and is attained by one of them unless it is 0 |
| CatalogWrite.OrderOnSave | product/models.py:108-114 | an explicit non-zero order is kept; order 0 becomes one more than the largest sibling order, so it exceeds every sibling's order and is at least 1 |
| CatalogWrite.OrderIgnoresOtherDescriptions | product/models.py:110-112 | rows of other descriptions have no effect on the allocated order |
| CatalogWrite.SaveRow | product/models.py:98-116 | the row is stored with its allocated order; the save fails iff its description block does not exist; nothing else changes; constraints are kept |
| CatalogWrite.AppendedOrdersIncrease | product/models.py:108-114 | appending rows without an explicit order to one block gives strictly increasing orders |
| CatalogWrite.ValidatePrices | product/serializers.py:171-178 | the write is rejected with "Price cannot be greater than MSRP" iff price and msrp are both non-zero and price > msrp; accepted data comes back unchanged |
| CatalogWrite.ParseProductType | product/models.py:65-68 | only "hardware" and "software" are accepted, and an accepted value maps back to the string given |
| CatalogWrite.ProductTypeRoundTrip | product/models.py:65-68 | every product type survives being stored as its string and read back |
| CatalogWrite.ProductFieldErrors | product/models.py:75-84 | msrp, price and description are required, an omitted one reported under its own name; msrp and price hold at most 10 digits; a `product_type` outside the choices is an error; no other field is reported |
| CatalogWrite.CreateProduct | product/serializers.py:158-178 | field errors, then the price check, then a missing sub-subcategory (`MissingParent`) refuse the create, each with its own error; with valid fields and prices the create succeeds iff the parent exists, and then appends exactly the product `NewProduct` describes, leaving every other table as it was |
| CatalogWrite.NewProduct | product/models.py:75-83 | a valid request is stored with a fresh key and the creation time; name, description, parents, prices, flags and display order are the request's own; absent fields take the defaults hardware, stock 100, in stock |
| CatalogWrite.AddProductKeepsValid | product/models.py:70-71 | appending a product with a fresh key under an existing sub-subcategory keeps the store's constraints |
| CatalogCascade.Prune | product/models.py:23-100 | after pruning, a row survives at each level iff it was present and its declared parent survived the level above |
| CatalogCascade.PruneClosed | product/models.py:23-100 | after pruning every declared foreign key resolves, and only rows that were present remain |
| CatalogCascade.PruneIdentity | product/models.py:23-100 | pruning a store whose foreign keys all resolve changes nothing |
| CatalogCascade.Delete | product/models.py:23-100 | a row survives a delete iff it was stored, is not the deleted row, and its parent survives, at every level of the hierarchy; so the row is gone, every foreign key resolves, and the constraints still hold |
| CatalogCascade.CategoryDeleteExact | product/models.py:23-100 | deleting a category removes exactly its descendants along the declared foreign keys: a row of any table survives iff it does not descend from the category |
| CatalogRead.ActiveSubCategories | product/serializers.py:121-127 | exactly the category's active subcategories, each as often as stored, ordered by display order then name |
| CatalogRead.ActiveProducts | product/serializers.py:98-106 | exactly the subcategory's active products, ordered by display order, newest first among equal display orders |
| CatalogRead.ActiveDescriptions | product/serializers.py:64-70 | exactly the product's active description blocks, ordered by display order |
| CatalogRead.BlockRows | product/serializers.py:24-28 | exactly the block's rows, ordered by their order |
| CatalogRead.SubCategoryDescriptions | product/serializers.py:82-86 | exactly the descriptions linked to the subcategory |
| CatalogRead.CategoryViewIsSound | product/serializers.py:108-127 | the nested view of a category shows only stored rows, each under its own parent, and only active subcategories, products and blocks |
| CatalogRead.SubCategoryViewIsSound | product/serializers.py:80-106 | the nested view of a subcategory shows only its own descriptions and its active products |
| CatalogRead.ProductViewIsSound | product/serializers.py:41-70 | the nested view of a product shows only its active blocks, each with its own rows |
| CatalogRead.IsTrueParam | product/views.py:55 | the parameter counts as true iff it is "true" in any mix of letter case |
| CatalogRead.CategoryQueryset | product/views.py:50-57 | without the parameter, every category once (a permutation); with it, exactly the categories whose flag equals "the parameter reads true"; in both cases ordered by display order then name |
| CatalogRead.NonTrueParamSelectsInactive | product/views.py:53-55 | any parameter other than a case-insensitive "true" lists exactly the inactive categories |
| CategoryViews.SuccessResponse | product/views.py:12-17 | the body has exactly the keys status (true), message and data |
| CategoryViews.ErrorResponse | product/views.py:19-28 | the body has success (false), message and null data, plus errors exactly when there are errors |
| CategoryViews.ResponseShapesDisagree | product/views.py:12-28 | success bodies carry `status` and never `success`; error bodies the reverse |
| CategoryViews.SerializerFor | product/views.py:45-48 | the write serializer is chosen exactly for create, update and partial update |
| CategoryViews.CategoryInputErrors | product/models.py:8 | a write is invalid iff it sends a name of more than 255 characters, and the error is then reported under `name` alone |
| CategoryViews.FindBySlug | product/views.py:43 | the lookup returns a category of the queryset with that slug, or reports that none has it |
| CategoryViews.ListCategories | product/views.py:59-62 | answers 200 with the nested view of every category of the queryset, in its order |
| CategoryViews.RetrieveCategory | product/views.py:64-70 | answers 404 iff no category of the queryset has the slug; otherwise 200 with exactly that category's nested view, which is sound |
| CategoryViews.CreateCategoryAsWritten | product/views.py:72-80 | invalid input gets no response at all |
| CategoryViews.CreateAsWrittenDropsInvalid | product/views.py:72-80 | a concrete over-long name for which the handler as written returns nothing |
| CategoryViews.CreateCategory | product/views.py:72-80 | invalid input gets a 400 error with the field errors and stores nothing; valid input is refused with `DuplicateSlug` iff another category holds the slug derived from the name, and is otherwise stored by the category save and answered 201 with a category that has a fresh key, that slug, the sent name (NULL when none is sent) and the sent flags |
| CategoryViews.CreateCorrectionAgrees | product/views.py:72-80 | the corrected create behaves exactly as written on every valid request |
| CategoryViews.CreateIgnoresClientSlug | product/serializers.py:135-140 | a slug sent by the client changes nothing about what a create stores or answers |
| CategoryViews.UpdateCategory | product/views.py:82-94 | 404 for an unknown slug; invalid input gets a 400 error with the field errors and stores nothing; valid input applies the sent fields (an omitted name is kept, a null one cleared), is refused iff another category holds the resulting slug, and is otherwise stored by the category save and answered 200 with the saved row |
| CategoryViews.UpdateThenRetrieve | product/views.py:82-94 | after a successful update, retrieving the same slug finds the category with the new flag and display order |
| CategoryViews.DestroyCategory | product/views.py:96-101 | 404 for an unknown slug; otherwise the store becomes what the cascading delete of that category leaves, and the answer is 200 with no data |
| CategoryViews.DestroyThenNotFound | product/views.py:96-101 | after a delete, no lookup of the same slug finds anything, whatever the filter |
| Accounts.CheckAfterSet | authentication/serializers.py:112 | a password set from `raw` accepts exactly `raw`; an unset password accepts nothing |
| Accounts.SaveHook | apps/user/models.py:26-29 | while an OTP is pending, each save sets its expiry to now + 5 minutes; otherwise the expiry is left alone; no other field changes |
| Accounts.SaveHookIdempotent | apps/user/models.py:26-29 | saving twice at one instant is the same as saving once |
| Accounts.SaveUser | apps/user/models.py:26-29 | the hooked record is stored, other users are kept, and no user appears from nowhere |
| Accounts.FindByEmail | apps/user/models.py:20 | the lookup returns a user with that email, or reports that none has it |
| Accounts.DecimalString | authentication/views.py:70 | `str(n)` is a non-empty string of decimal digits |
| Accounts.DecimalRoundTrip | authentication/views.py:70 | reading the digits of `str(n)` back gives `n` |
| Accounts.DecimalInjective | authentication/views.py:70 | distinct draws give distinct codes |
| Accounts.FourDigits | authentication/views.py:70 | every draw in [1000, 9999] is written with exactly four digits |
| Accounts.IssueOtp | apps/user/models.py:13 | an issued code is four digits and reads back as the draw |
| Accounts.SaveUserKeepsWF | apps/user/models.py:9 | saving a user whose email no one else holds and whose code is well formed keeps ids and emails unique and every code paired with an expiry |
| AuthFlows.OwnEmailFree | apps/user/models.py:9 | with unique emails, a stored user's email is held by no one else |
| AuthFlows.ForgotPassword | authentication/views.py:63-95 | 404 for an unknown email; a failed send answers 500 and changes nothing; a successful send stores the four-digit code with expiry now + 5 minutes, leaves other users alone and names the code in the message |
| AuthFlows.VerifyOtp | authentication/serializers.py:71-87 | 404 for an unknown email; a mismatch is "Invalid OTP." whatever the time; a matching code past its expiry is "OTP has expired." and changes nothing; success iff the code matches and now is not after the expiry, which clears code and expiry and touches no other user; on a well-formed table the expiry comparison never fails |
| AuthFlows.ClearCode | authentication/serializers.py:83-85 | clearing a stored user's code and expiry stores exactly that cleared row in its place, keeps every other user, adds none, and keeps the table well formed |
| AuthFlows.VerifyReplayFails | authentication/serializers.py:83-85 | a code that was just accepted is refused as invalid when presented again |
| AuthFlows.IssuedOtpWindow | apps/user/models.py:27-28 | an issued code verifies at every instant up to and including issue time + 5 minutes, and is refused as expired after that |
| AuthFlows.NewOtpInvalidatesOld | authentication/views.py:82-83 | after a second code request, the first code is refused as invalid |
| AuthFlows.ResetRefreshesPendingOtp | apps/user/models.py:26-29 | a save while a code is pending restarts its five minutes: after a reset at time t, an earlier code still verifies up to t + 5 minutes |
| AuthFlows.Login | authentication/serializers.py:44-54 | 404 for an unknown email; success iff the stored password matches, answering 200 with that user; otherwise the "email or password wrong" error; nothing is stored |
| AuthFlows.LoginExact | authentication/serializers.py:48-53 | with unique emails, login succeeds iff some stored user has that email and password |
| AuthFlows.SocialSignIn | authentication/serializers.py:28-38 | an existing user is returned untouched with 200; otherwise one user with the given names and provider and no usable password is appended and returned with 201 |
| AuthFlows.SocialSignInIdempotent | authentication/views.py:36-43 | a second social sign-in with the same email changes nothing and answers 200 with the same user |
| AuthFlows.ChangePassword | authentication/serializers.py:104-122 | an unknown user is unauthenticated; the change succeeds iff the current password checks; a wrong one is a 400 and changes nothing; on success the new password is stored, and no other user is added, lost or altered |
| AuthFlows.ResetNewPassword | authentication/serializers.py:89-102 | 404 iff the email is unknown; otherwise the password is stored, with no code asked for, and no other user is added, lost or altered |
| AuthFlows.LoginAfterReset | authentication/serializers.py:97-100 | after a reset, login succeeds with the new password and with no other |
| AuthFlows.LoginAfterChange | authentication/serializers.py:117-122 | after a change, login succeeds with the new password and with no other |
| AuthFlows.MergeProfile | authentication/serializers.py:144-161 | names, email and image change only when a non-empty value is supplied; no other field changes |
| AuthFlows.UpdateProfile | authentication/serializers.py:144-164 | an unknown user is unauthenticated; the update succeeds iff the email is not another user's; a conflict is a 400 and nothing is stored; otherwise the merged user is saved and returned with 200, no other user is added, lost or altered, and the table stays well formed |
| AuthFlows.OwnEmailNoConflict | authentication/serializers.py:150-155 | resubmitting one's own email is never a conflict and leaves the email as it is |

## Left out

- HTTP routing, authentication classes, permissions and the URL configuration. A response
  is its status code and the keys of its body.
- The admin registrations.
- Sending mail. It is a boolean parameter: the send succeeded or it raised.
- JWT issuance (`get_tokens_for_user`). Its module is not part of this model.
- Image files: removing the old file and resolving its path. An image is its stored name.
- `slugify` and password hashing are taken as given functions.
- UUID generation: a new key is one more than the largest key present. The declared
  `default=uuid.uuid5` would fail at runtime; the evident rule, a fresh key, is modelled.
- `created_at` and `updated_at`. A product's creation time is the `now` parameter.
- `get_overview`. It calls a method that no file defines.
- The annotated `active_subcategories_count` and `active_products_count`. No queryset
  annotates them.
- Misspelt names in the source, each of which would raise at runtime; the model follows
  the rule each line evidently means:
  `serializer.ModelSerializer` (product/serializers.py:135), `auto_now_save`
  (product/models.py:10, 26, 42), `models.models.DecimalField` (product/models.py:75-76),
  the `'order_max'` key and the `ProductDescription=` lookup (product/models.py:110-112).
- The `is_active`, `display_order` and `subcategory` fields the serializers use but the
  models do not declare. They are taken as present, with `display_order` on rows being
  the model's `order`.
- Two links the serializers name differently from the models are identified with the
  declared foreign keys and cascade as those do: `category` on subcategories
  (product/serializers.py:124) is the declared `productCategory`, and `description` on rows
  (product/serializers.py:26) is the declared `productDescription`. Two links no model
  declares are plain values, neither checked by the store's constraints nor cascaded: a
  product's `subcategory`, and a category description's `subCategory`, which
  `categorydescription_set` reads (product/serializers.py:83).
- CatalogWrite.ProductFieldErrors: an amount is an integer number of cents, not the text
  the client wrote. The framework's decimal field checks the total digits as written
  first, then the decimal places, then at most 8 digits before the point, so its message
  for an oversized amount depends on how the amount was written: "123456789" gets the
  8-whole-digits message, "123456789.00" the 10-digits one. The model gives every
  out-of-range amount the 10-digits message. For the amounts and the description it also
  does not tell an explicit null ("This field may not be null.") from an omitted field
  ("This field is required.").
- CatalogWrite.CreateProduct: the request carries the product's sub-subcategory, and the
  create succeeds only when that parent exists. The write serializer's field list
  (product/serializers.py:163-168) leaves out `ProductSubSubCategory`, so as written a
  create never sets that NOT NULL foreign key, and it lists a `subcategory` field the model
  does not declare. The model follows the evident intent instead: the parent is taken
  from the request and checked. The request's `subcategory` is stored as sent and never
  checked to exist.
- Field-level validation other than what is named above: email format, whitespace
  trimming, blank strings, and the other `max_length` limits.
- A category write always supplies `is_active` and `display_order`. The model does not
  declare these fields, so it gives them no defaults.
- The registration endpoint. It is not one of the modelled flows.
- The GET branch of `profile_data`. It serializes the user's public fields and has no
  logic of its own.
- The first, shadowed `ProfileUpdateSerializer.update` (authentication/serializers.py:135-142).
  It is dead code.
- The ORM query engine, transactions and concurrency. Two racing writes of the same slug
  or row order are not modelled.
- CatalogRead.IsTrueParam: Python's `lower()` is modelled on ASCII letters only. No
  other character lower-cases to a letter of "true", so the result is the same.
- CatalogRead.ActiveSubCategories, CatalogRead.CategoryQueryset: the model sorts NULL
  names before every string and compares names by code point. That is SQLite's behaviour
  under its default collation. PostgreSQL and Oracle put NULLs last, and other collations
  order strings differently.
- Ties under `order_by` are left to the database. The model sorts stably over table
  order, which is one of the orders the database may return.
- AuthFlows.ResetNewPassword: resetting a password asks for no code and does not check
  that one was verified. The model states this behaviour as it is.

## Findings

| source | as written | input that shows it | evidently intended | confidence | as-written member | corrected member |
|---|---|---|---|---|---|---|
| product/views.py:72-80 | `create` returns a response only when the serializer is valid; for invalid input it returns `None`, which the framework rejects with a server error | a create request whose name has 256 characters | answer invalid input with `error_response` and the field errors, status 400, as `update` does | high (not executed) | CategoryViews.CreateCategoryAsWritten, CategoryViews.CreateAsWrittenDropsInvalid | CategoryViews.CreateCategory, CategoryViews.CreateCorrectionAgrees |

=== FILE: accounts.dfy ===
/**
 The custom user model: the record, its `save()` hook that stamps the OTP expiry, the
 one-time code format, and the invariant the user table keeps. Password hashing is
 modelled by an injective wrapper: a stored hash matches exactly the raw password it was
 made from.
 */
module Accounts {

  import opened Wrappers
  import opened Tables

  /** Instants in microseconds. */
  type Time = int

  /** `timedelta(minutes=5)` in microseconds. */
  const OtpLifetime: int := 5 * 60 * 1_000_000

  /** `max_length` of the `otp` column. */
  const OtpLength: nat := 4

  /** `password`: never set (social accounts), or the hash of a raw password. */
  datatype PasswordHash = Unset | Hashed(raw: string)

  /** `set_password`. */
  function MakePassword(raw: string): PasswordHash {
    Hashed(raw)
  }

  /** `check_password`: true only for the raw password the stored hash was made from. */
  predicate CheckPassword(stored: PasswordHash, raw: string) {
    stored.Hashed? && stored.raw == raw
  }

  /** A password set with `raw` accepts `raw` and nothing else; an unset one accepts nothing. */
  lemma CheckAfterSet(raw: string, attempt: string)
    ensures CheckPassword(MakePassword(raw), attempt) <==> attempt == raw
    ensures !CheckPassword(Unset, attempt)
  {
  }

  datatype User = User(
    id: Id,
    email: string,
    firstName: string,
    lastName: string,
    image: Option<string>,
    password: PasswordHash,
    otp: Option<string>,
    otpExpired: Option<Time>,
    authProvider: string)

  function UserId(u: User): Id { u.id }
  function UserEmail(u: User): string { u.email }

  /** Python truthiness of `self.otp`: present and non-empty. */
  predicate OtpPending(u: User) {
    u.otp.Some? && u.otp.value != ""
  }

  /**
   `Users.save`: while an OTP is pending, every save moves its expiry to five minutes
   after `now`; otherwise the expiry is left as it is. Nothing else changes.
   */
  function SaveHook(u: User, now: Time): (r: User)
    ensures OtpPending(u) ==> r.otpExpired == Some(now + OtpLifetime)
    ensures !OtpPending(u) ==> r.otpExpired == u.otpExpired
    ensures r.(otpExpired := u.otpExpired) == u
  {
    if OtpPending(u) then u.(otpExpired := Some(now + OtpLifetime)) else u
  }

  /** Saving twice at the same instant is saving once. */
  lemma SaveHookIdempotent(u: User, now: Time)
    ensures SaveHook(SaveHook(u, now), now) == SaveHook(u, now)
  {
  }

  /** The user table: `save()` applied through the hook. */
  function SaveUser(users: seq<User>, u: User, now: Time): (r: seq<User>)
    ensures SaveHook(u, now) in r
    ensures forall y :: y in r ==> y == SaveHook(u, now) || (y in users && y.id != u.id)
    ensures forall y :: y in users && y.id != u.id ==> y in r
    ensures Ids(r, UserId) == Ids(users, UserId) + {u.id}
  {
    Upsert(users, SaveHook(u, now), UserId)
  }

  /** `Users.objects.get(email=...)`. */
  function FindByEmail(users: seq<User>, email: string): (r: Option<User>)
    ensures r.Some? ==> r.value in users && r.value.email == email
    ensures r.None? ==> forall u :: u in users ==> u.email != email
  {
    if users == [] then None
    else if users[0].email == email then Some(users[0])
    else FindByEmail(users[1..], email)
  }

  // ---------------------------------------------------------------- one-time codes

  predicate IsDigit(c: char) {
    '0' <= c <= '9'
  }

  function DigitChar(d: nat): (c: char)
    requires d < 10
    ensures IsDigit(c)
  {
    (('0' as int) + d) as char
  }

  function DigitValue(c: char): (d: nat)
    requires IsDigit(c)
    ensures d < 10 && DigitChar(d) == c
  {
    (c as int) - ('0' as int)
  }

  /** `str(n)` for a non-negative integer: its decimal digits, no leading zero. */
  function DecimalString(n: nat): (s: string)
    ensures |s| >= 1
    ensures forall i :: 0 <= i < |s| ==> IsDigit(s[i])
  {
    if n < 10 then [DigitChar(n)] else DecimalString(n / 10) + [DigitChar(n % 10)]
  }

  /** The inverse of `DecimalString`: reads a string of digits as a number. */
  function ParseDecimal(s: string): nat
    requires forall i :: 0 <= i < |s| ==> IsDigit(s[i])
  {
    if s == [] then 0 else ParseDecimal(s[..|s| - 1]) * 10 + DigitValue(s[|s| - 1])
  }

  /** Reading back the digits of `n` gives `n`. */
  lemma {:induction false} DecimalRoundTrip(n: nat)
    ensures ParseDecimal(DecimalString(n)) == n
  {
    var s := DecimalString(n);
    if n >= 10 {
      DecimalRoundTrip(n / 10);
      assert s[..|s| - 1] == DecimalString(n / 10);
      assert DigitValue(s[|s| - 1]) == n % 10;
    }
  }

  /** Distinct numbers have distinct decimal strings. */
  lemma DecimalInjective(a: nat, b: nat)
    ensures DecimalString(a) == DecimalString(b) ==> a == b
  {
    DecimalRoundTrip(a);
    DecimalRoundTrip(b);
  }

  /** A number in `[10^(k-1), 10^k)` has exactly `k` digits, for the one case used. */
  lemma {:induction false} FourDigits(n: nat)
    requires 1000 <= n <= 9999
    ensures |DecimalString(n)| == OtpLength
  {
    assert 100 <= n / 10 <= 999;
    assert 10 <= n / 100 <= 99;
    assert 1 <= n / 1000 <= 9;
    assert n / 10 / 10 == n / 100;
    assert n / 100 / 10 == n / 1000;
    assert |DecimalString(n / 1000)| == 1;
    assert |DecimalString(n / 100)| == 2;
    assert |DecimalString(n / 10)| == 3;
  }

  /** `random.randint(1000, 9999)`: the draw is inclusive at both ends. */
  type OtpDraw = n: int | 1000 <= n <= 9999 witness 1000

  /** What a user's `otp` column may hold: exactly four decimal digits. */
  predicate OtpShaped(s: string) {
    |s| == OtpLength && forall i :: 0 <= i < |s| ==> IsDigit(s[i])
  }

  /** `str(random.randint(1000, 9999))`: always four digits, and it reads back as the draw. */
  function IssueOtp(draw: OtpDraw): (s: string)
    ensures OtpShaped(s)
    ensures ParseDecimal(s) == draw
  {
    FourDigits(draw);
    DecimalRoundTrip(draw);
    DecimalString(draw)
  }

  // ---------------------------------------------------------------- the table invariant

  /**
   The user table: unique ids, unique emails (the login identifier), and every stored
   code four digits long with an expiry alongside it.
   */
  predicate UsersWF(users: seq<User>) {
    && UniqueBy(users, UserId)
    && UniqueBy(users, UserEmail)
    && forall u :: u in users && u.otp.Some? ==> OtpShaped(u.otp.value) && u.otpExpired.Some?
  }

  /** Whether some user other than `id` already has `email`. */
  predicate EmailTakenByOther(users: seq<User>, id: Id, email: string) {
    TakenByOther(users, id, email, UserId, UserEmail)
  }

  /** Saving a user keeps the table well formed when its email is free and its code well shaped. */
  lemma SaveUserKeepsWF(users: seq<User>, u: User, now: Time)
    ensures UsersWF(users) && !EmailTakenByOther(users, u.id, u.email) && (u.otp.Some? ==> OtpShaped(u.otp.value))
            ==> UsersWF(SaveUser(users, u, now))
  {
    if UsersWF(users) && !EmailTakenByOther(users, u.id, u.email) && (u.otp.Some? ==> OtpShaped(u.otp.value)) {
      var saved := SaveHook(u, now);
      UpsertKeepsUnique(users, saved, UserId, UserEmail);
      assert !TakenByOther(users, UserId(saved), UserEmail(saved), UserId, UserEmail);
    }
  }
}

=== FILE: auth_flows.dfy ===
/**
 The authentication endpoints as state transitions over the user table: forgot-password
 (issuing a code), code verification, login, social sign-in, change-password,
 reset-password and profile update. The clock, the random draw and the outcome of
 sending mail are parameters.
 */
module AuthFlows {

  import opened Wrappers
  import opened Tables
  import opened Accounts

  /** What an endpoint answers: a success with its status, or a 400, 404, 401 or 500. */
  datatype Reply =
    | Done(code: int, message: string, user: Option<User>)
    | Invalid(field: string, message: string)
    | NotFound
    | Unauthenticated
    | ServerError(message: string)

  datatype Outcome = Outcome(users: seq<User>, reply: Reply)

  /** In a table with unique emails, a stored user's own email is not held by anyone else. */
  lemma OwnEmailFree(users: seq<User>, u: User)
    ensures UniqueBy(users, UserEmail) && u in users ==> !EmailTakenByOther(users, u.id, u.email)
  {
    if UniqueBy(users, UserEmail) && u in users {
      forall x | x in users && UserId(x) != u.id && UserEmail(x) == u.email ensures false {
        SameKeySameRow(users, x, u, UserEmail);
      }
    }
  }

  /** The stored user with this email after a save of `u` is the saved `u`. */
  lemma FoundAfterSave(users: seq<User>, u: User, now: Time)
    requires UsersWF(users) && !EmailTakenByOther(users, u.id, u.email)
    requires u.otp.Some? ==> OtpShaped(u.otp.value)
    ensures FindByEmail(SaveUser(users, u, now), u.email) == Some(SaveHook(u, now))
  {
    var r := SaveUser(users, u, now);
    SaveUserKeepsWF(users, u, now);
    var found := FindByEmail(r, u.email);
    assert SaveHook(u, now) in r;
    SameKeySameRow(r, found.value, SaveHook(u, now), UserEmail);
  }

  // ---------------------------------------------------------------- one-time codes

  /**
   `forgot_password`: 404 for an unknown email; otherwise send the code by mail and, only
   if sending succeeded, store it (the save hook stamps its expiry) and answer 200 with a
   message that names the address and the code. A failed send answers 500 and stores nothing.
   */
  function ForgotPassword(users: seq<User>, email: string, draw: OtpDraw, mailSent: bool, now: Time)
    : (r: Outcome)
    ensures FindByEmail(users, email).None? ==> r == Outcome(users, NotFound)
    ensures FindByEmail(users, email).Some? && !mailSent ==>
      r == Outcome(users, ServerError("Failed to send OTP email."))
    ensures FindByEmail(users, email).Some? && mailSent ==>
      && r.reply == Done(200, "OTP successfully sent to " + email + " || otp : " + IssueOtp(draw), None)
      && var u := FindByEmail(users, email).value;
         && u.(otp := Some(IssueOtp(draw)), otpExpired := Some(now + OtpLifetime)) in r.users
         && (forall y :: y in users && y.id != u.id ==> y in r.users)
         && (forall y :: y in r.users && y.id != u.id ==> y in users)
    ensures UsersWF(users) ==> UsersWF(r.users)
  {
    match FindByEmail(users, email)
    case None => Outcome(users, NotFound)
    case Some(u) =>
      if !mailSent then Outcome(users, ServerError("Failed to send OTP email."))
      else
        var otp := IssueOtp(draw);
        var changed := u.(otp := Some(otp));
        OwnEmailFree(users, u);
        SaveUserKeepsWF(users, changed, now);
        Outcome(SaveUser(users, changed, now),
                Done(200, "OTP successfully sent to " + email + " || otp : " + otp, None))
  }

  /** The error message verification gives for a code that is not the stored one. */
  const InvalidOtp := "Invalid OTP."
  /** The error message verification gives for a matching code past its expiry. */
  const ExpiredOtp := "OTP has expired."

  /**
   `VarifiedOTPSerializer.validate` and `vaify_otp`: 404 for an unknown email; a code that
   differs from the stored one is rejected before the expiry is looked at; a matching code
   is rejected only when its expiry is strictly before `now`. On success the code and its
   expiry are cleared. Comparing a missing expiry with `now` raises, which is a 500.
   */
  function VerifyOtp(users: seq<User>, email: string, otp: string, now: Time): (r: Outcome)
    ensures FindByEmail(users, email).None? ==> r == Outcome(users, NotFound)
    ensures FindByEmail(users, email).Some? && FindByEmail(users, email).value.otp != Some(otp) ==>
      r == Outcome(users, Invalid("otp", InvalidOtp))
    ensures r.reply.Done? <==>
      && FindByEmail(users, email).Some?
      && FindByEmail(users, email).value.otp == Some(otp)
      && FindByEmail(users, email).value.otpExpired.Some?
      && now <= FindByEmail(users, email).value.otpExpired.value
    ensures r.reply.Done? ==>
      && r.reply == Done(200, "otp vairified", None)
      && var u := FindByEmail(users, email).value;
         && u.(otp := None, otpExpired := None) in r.users
         && (forall y :: y in users && y.id != u.id ==> y in r.users)
         && (forall y :: y in r.users && y.id != u.id ==> y in users)
    ensures FindByEmail(users, email).Some? && FindByEmail(users, email).value.otp == Some(otp)
            && FindByEmail(users, email).value.otpExpired.Some?
            && FindByEmail(users, email).value.otpExpired.value < now
            ==> r == Outcome(users, Invalid("otp", ExpiredOtp))
    ensures !r.reply.Done? ==> r.users == users
    ensures UsersWF(users) ==> !r.reply.ServerError? && UsersWF(r.users)
  {
    match FindByEmail(users, email)
    case None => Outcome(users, NotFound)
    case Some(u) =>
      if u.otp != Some(otp) then Outcome(users, Invalid("otp", InvalidOtp))
      else if u.otpExpired.None? then Outcome(users, ServerError("'<' not supported between instances of 'NoneType' and 'datetime.datetime'"))
      else if u.otpExpired.value < now then Outcome(users, Invalid("otp", ExpiredOtp))
      else Outcome(ClearCode(users, u, now), Done(200, "otp vairified", None))
  }

  /** Saving a stored user with code and expiry cleared: only that user's row changes. */
  function ClearCode(users: seq<User>, u: User, now: Time): (r: seq<User>)
    requires u in users
    ensures u.(otp := None, otpExpired := None) in r
    ensures forall y :: y in users && y.id != u.id ==> y in r
    ensures forall y :: y in r && y.id != u.id ==> y in users
    ensures UsersWF(users) ==> UsersWF(r)
  {
    var cleared := u.(otp := None, otpExpired := None);
    OwnEmailFree(users, u);
    SaveUserKeepsWF(users, cleared, now);
    SaveUser(users, cleared, now)
  }

  /** A code that was just accepted is rejected when presented again, at any time. */
  lemma VerifyReplayFails(users: seq<User>, email: string, otp: string, now: Time, later: Time)
    requires UsersWF(users)
    requires VerifyOtp(users, email, otp, now).reply.Done?
    ensures VerifyOtp(VerifyOtp(users, email, otp, now).users, email, otp, later).reply == Invalid("otp", InvalidOtp)
  {
    var u := FindByEmail(users, email).value;
    OwnEmailFree(users, u);
    FoundAfterSave(users, u.(otp := None, otpExpired := None), now);
  }

  /**
   A code issued at `issued` is accepted at every instant up to and including
   `issued + OtpLifetime`, and rejected as expired after it.
   */
  lemma IssuedOtpWindow(users: seq<User>, email: string, draw: OtpDraw, issued: Time, at: Time)
    requires UsersWF(users) && FindByEmail(users, email).Some?
    ensures var s := ForgotPassword(users, email, draw, true, issued).users;
      && (at <= issued + OtpLifetime ==> VerifyOtp(s, email, IssueOtp(draw), at).reply.Done?)
      && (at > issued + OtpLifetime ==> VerifyOtp(s, email, IssueOtp(draw), at).reply == Invalid("otp", ExpiredOtp))
  {
    var u := FindByEmail(users, email).value;
    OwnEmailFree(users, u);
    FoundAfterSave(users, u.(otp := Some(IssueOtp(draw))), issued);
  }

  /** A second code request replaces the first: the earlier code no longer verifies. */
  lemma NewOtpInvalidatesOld(users: seq<User>, email: string, first: OtpDraw, second: OtpDraw,
                             t1: Time, t2: Time, at: Time)
    requires UsersWF(users) && FindByEmail(users, email).Some? && first != second
    ensures var s1 := ForgotPassword(users, email, first, true, t1).users;
      var s2 := ForgotPassword(s1, email, second, true, t2).users;
      VerifyOtp(s2, email, IssueOtp(first), at).reply == Invalid("otp", InvalidOtp)
  {
    var u := FindByEmail(users, email).value;
    OwnEmailFree(users, u);
    var s1 := ForgotPassword(users, email, first, true, t1).users;
    FoundAfterSave(users, u.(otp := Some(IssueOtp(first))), t1);
    var u1 := FindByEmail(s1, email).value;
    OwnEmailFree(s1, u1);
    FoundAfterSave(s1, u1.(otp := Some(IssueOtp(second))), t2);
    DecimalInjective(first, second);
  }

  // ---------------------------------------------------------------- passwords and sign-in

  /**
   `LoginSerialzer.validate` and `login`: 404 for an unknown email, a 400 for a wrong
   password, and otherwise 200 with the user. Nothing is stored.
   */
  function Login(users: seq<User>, email: string, password: string): (r: Outcome)
    ensures r.users == users
    ensures FindByEmail(users, email).None? <==> r.reply == NotFound
    ensures r.reply.Done? <==>
      FindByEmail(users, email).Some? && CheckPassword(FindByEmail(users, email).value.password, password)
    ensures r.reply.Done? ==>
      && r.reply == Done(200, "Successfully logged in.", FindByEmail(users, email))
      && r.reply.user.value in users && r.reply.user.value.email == email
    ensures !r.reply.Done? && !r.reply.NotFound? ==> r.reply == Invalid("error", "\"email\" or \"password\" wrong")
  {
    match FindByEmail(users, email)
    case None => Outcome(users, NotFound)
    case Some(u) =>
      if !CheckPassword(u.password, password) then
        Outcome(users, Invalid("error", "\"email\" or \"password\" wrong"))
      else Outcome(users, Done(200, "Successfully logged in.", Some(u)))
  }

  /** With unique emails, login succeeds exactly for a stored user's email and password. */
  lemma LoginExact(users: seq<User>, email: string, password: string)
    requires UsersWF(users)
    ensures Login(users, email, password).reply.Done? <==>
      exists u :: u in users && u.email == email && CheckPassword(u.password, password)
  {
    if x :| x in users && x.email == email && CheckPassword(x.password, password) {
      var u := FindByEmail(users, email).value;
      SameKeySameRow(users, x, u, UserEmail);
    }
  }

  /**
   `social_signup_signin`: get-or-create by email. An existing user is returned untouched
   with 200; otherwise a user with the given names and provider and no usable password is
   created and returned with 201.
   */
  function SocialSignIn(users: seq<User>, email: string, firstName: string, lastName: string,
                        provider: string, now: Time): (r: Outcome)
    ensures r.reply.Done? && r.reply.user.Some? && r.reply.user.value.email == email
    ensures r.reply.code == 201 <==> FindByEmail(users, email).None?
    ensures FindByEmail(users, email).Some? ==> r == Outcome(users, Done(200, "Successfully authenticated.", FindByEmail(users, email)))
    ensures FindByEmail(users, email).None? ==>
      && r.users == users + [r.reply.user.value]
      && r.reply.user.value.id !in Ids(users, UserId)
      && r.reply.user.value == User(r.reply.user.value.id, email, firstName, lastName, None, Unset, None, None, provider)
    ensures UsersWF(users) ==> UsersWF(r.users)
  {
    match FindByEmail(users, email)
    case Some(u) => Outcome(users, Done(200, "Successfully authenticated.", Some(u)))
    case None =>
      var u := User(FreshId(users, UserId), email, firstName, lastName, None, Unset, None, None, provider);
      SaveUserKeepsWF(users, u, now);
      Outcome(SaveUser(users, u, now), Done(201, "Successfully authenticated.", Some(u)))
  }

  /** Signing in socially twice creates at most one user: the second call changes nothing. */
  lemma SocialSignInIdempotent(users: seq<User>, email: string, f1: string, l1: string, p1: string,
                               f2: string, l2: string, p2: string, t1: Time, t2: Time)
    requires UsersWF(users)
    ensures var first := SocialSignIn(users, email, f1, l1, p1, t1);
      var second := SocialSignIn(first.users, email, f2, l2, p2, t2);
      && second.users == first.users
      && second.reply == Done(200, "Successfully authenticated.", first.reply.user)
  {
    var first := SocialSignIn(users, email, f1, l1, p1, t1);
    var u := first.reply.user.value;
    if FindByEmail(users, email).None? {
      assert u in first.users;
      var found := FindByEmail(first.users, email).value;
      SameKeySameRow(first.users, found, u, UserEmail);
    }
  }

  /**
   `ChangePasswordSerializer` and `change_password`: for the signed-in user, a wrong
   current password is a 400 and nothing is stored; otherwise the new password is set and
   the user saved (which also refreshes a pending code's expiry).
   */
  function ChangePassword(users: seq<User>, uid: Id, current: string, newPassword: string, now: Time)
    : (r: Outcome)
    ensures Find(users, uid, UserId).None? ==> r == Outcome(users, Unauthenticated)
    ensures r.reply.Invalid? <==>
      Find(users, uid, UserId).Some? && !CheckPassword(Find(users, uid, UserId).value.password, current)
    ensures r.reply.Invalid? ==> r == Outcome(users, Invalid("current_password", "wrong current password"))
    ensures r.reply.Done? ==>
      && r.reply == Done(200, "Change password successfully", None)
      && var u := Find(users, uid, UserId).value;
         && SaveHook(u.(password := MakePassword(newPassword)), now) in r.users
         && (forall y :: y in users && y.id != uid ==> y in r.users)
         && (forall y :: y in r.users && y.id != uid ==> y in users)
    ensures Find(users, uid, UserId).Some? && CheckPassword(Find(users, uid, UserId).value.password, current)
            ==> r.reply.Done?
    ensures !r.reply.Done? ==> r.users == users
    ensures UsersWF(users) ==> UsersWF(r.users)
  {
    match Find(users, uid, UserId)
    case None => Outcome(users, Unauthenticated)
    case Some(u) =>
      if !CheckPassword(u.password, current) then
        Outcome(users, Invalid("current_password", "wrong current password"))
      else
        var changed := u.(password := MakePassword(newPassword));
        OwnEmailFree(users, u);
        SaveUserKeepsWF(users, changed, now);
        Outcome(SaveUser(users, changed, now), Done(200, "Change password successfully", None))
  }

  /**
   `ResetNewPasswordSerializer.save` and `reset_new_password`: 404 for an unknown email,
   otherwise the password is set and saved. No code, verified or not, is asked for.
   */
  function ResetNewPassword(users: seq<User>, email: string, password: string, now: Time): (r: Outcome)
    ensures FindByEmail(users, email).None? <==> r == Outcome(users, NotFound)
    ensures FindByEmail(users, email).Some? ==>
      && r.reply == Done(200, "Password updated successfully", None)
      && var u := FindByEmail(users, email).value;
         && SaveHook(u.(password := MakePassword(password)), now) in r.users
         && (forall y :: y in users && y.id != u.id ==> y in r.users)
         && (forall y :: y in r.users && y.id != u.id ==> y in users)
    ensures UsersWF(users) ==> UsersWF(r.users)
  {
    match FindByEmail(users, email)
    case None => Outcome(users, NotFound)
    case Some(u) =>
      var changed := u.(password := MakePassword(password));
      OwnEmailFree(users, u);
      SaveUserKeepsWF(users, changed, now);
      Outcome(SaveUser(users, changed, now), Done(200, "Password updated successfully", None))
  }

  /** After a reset the new password logs in and any other password is refused. */
  lemma LoginAfterReset(users: seq<User>, email: string, password: string, attempt: string, now: Time)
    requires UsersWF(users) && FindByEmail(users, email).Some?
    ensures var s := ResetNewPassword(users, email, password, now).users;
      Login(s, email, attempt).reply.Done? <==> attempt == password
  {
    var u := FindByEmail(users, email).value;
    OwnEmailFree(users, u);
    FoundAfterSave(users, u.(password := MakePassword(password)), now);
  }

  /** After a change the new password logs in and any other password is refused. */
  lemma LoginAfterChange(users: seq<User>, uid: Id, current: string, newPassword: string,
                         attempt: string, now: Time)
    requires UsersWF(users)
    requires ChangePassword(users, uid, current, newPassword, now).reply.Done?
    ensures var u := Find(users, uid, UserId).value;
      var s := ChangePassword(users, uid, current, newPassword, now).users;
      Login(s, u.email, attempt).reply.Done? <==> attempt == newPassword
  {
    var u := Find(users, uid, UserId).value;
    OwnEmailFree(users, u);
    FoundAfterSave(users, u.(password := MakePassword(newPassword)), now);
  }

  /**
   Any save while a code is pending restarts its five minutes: after a password reset at
   `resetAt`, a code issued earlier still verifies up to `resetAt + OtpLifetime`.
   */
  lemma ResetRefreshesPendingOtp(users: seq<User>, email: string, draw: OtpDraw, pw: string,
                                 issued: Time, resetAt: Time, at: Time)
    requires UsersWF(users) && FindByEmail(users, email).Some?
    requires at <= resetAt + OtpLifetime
    ensures var s1 := ForgotPassword(users, email, draw, true, issued).users;
      var s2 := ResetNewPassword(s1, email, pw, resetAt).users;
      VerifyOtp(s2, email, IssueOtp(draw), at).reply.Done?
  {
    var u := FindByEmail(users, email).value;
    OwnEmailFree(users, u);
    var s1 := ForgotPassword(users, email, draw, true, issued).users;
    FoundAfterSave(users, u.(otp := Some(IssueOtp(draw))), issued);
    var u1 := FindByEmail(s1, email).value;
    OwnEmailFree(s1, u1);
    FoundAfterSave(s1, u1.(password := MakePassword(pw)), resetAt);
  }

  // ---------------------------------------------------------------- profile

  /** A partial profile update: each field absent or supplied. */
  datatype ProfileInput = ProfileInput(firstName: Option<string>, lastName: Option<string>,
                                       email: Option<string>, image: Option<string>)

  /** Python truthiness of an optional string. */
  predicate Supplied(v: Option<string>) {
    v.Some? && v.value != ""
  }

  /** A new email that another user already holds. */
  predicate EmailConflict(users: seq<User>, u: User, input: ProfileInput) {
    Supplied(input.email) && input.email.value != u.email && EmailTakenByOther(users, u.id, input.email.value)
  }

  /** The merge `update` applies: a field changes only when a non-empty, different value is supplied. */
  function MergeProfile(u: User, input: ProfileInput): (m: User)
    ensures m.firstName == (if Supplied(input.firstName) then input.firstName.value else u.firstName)
    ensures m.lastName == (if Supplied(input.lastName) then input.lastName.value else u.lastName)
    ensures m.email == (if Supplied(input.email) then input.email.value else u.email)
    ensures m.image == (if Supplied(input.image) then input.image else u.image)
    ensures m.(firstName := u.firstName, lastName := u.lastName, email := u.email, image := u.image) == u
  {
    u.(firstName := if Supplied(input.firstName) then input.firstName.value else u.firstName,
       lastName := if Supplied(input.lastName) then input.lastName.value else u.lastName,
       email := if Supplied(input.email) && input.email.value != u.email then input.email.value else u.email,
       image := if Supplied(input.image) && input.image != u.image then input.image else u.image)
  }

  /**
   The effective `ProfileUpdateSerializer.update` behind `profile_data`'s PATCH: an email
   another user holds is a 400 and nothing is stored; otherwise the merged user is saved
   (refreshing a pending code's expiry) and returned with 200.
   */
  function UpdateProfile(users: seq<User>, uid: Id, input: ProfileInput, now: Time): (r: Outcome)
    ensures Find(users, uid, UserId).None? ==> r == Outcome(users, Unauthenticated)
    ensures r.reply.Invalid? <==>
      Find(users, uid, UserId).Some? && EmailConflict(users, Find(users, uid, UserId).value, input)
    ensures r.reply.Invalid? ==> r == Outcome(users, Invalid("email", "This email is already in use."))
    ensures r.reply.Done? ==>
      && var u := Find(users, uid, UserId).value;
         && r.reply == Done(200, "Profile updated successfully", Some(SaveHook(MergeProfile(u, input), now)))
         && SaveHook(MergeProfile(u, input), now) in r.users
         && (forall y :: y in users && y.id != uid ==> y in r.users)
         && (forall y :: y in r.users && y.id != uid ==> y in users)
    ensures Find(users, uid, UserId).Some? && !EmailConflict(users, Find(users, uid, UserId).value, input)
            ==> r.reply.Done?
    ensures !r.reply.Done? ==> r.users == users
    ensures UsersWF(users) ==> UsersWF(r.users)
  {
    match Find(users, uid, UserId)
    case None => Outcome(users, Unauthenticated)
    case Some(u) =>
      if EmailConflict(users, u, input) then Outcome(users, Invalid("email", "This email is already in use."))
      else
        var merged := MergeProfile(u, input);
        OwnEmailFree(users, u);
        SaveUserKeepsWF(users, merged, now);
        var saved := SaveHook(merged, now);
        Outcome(SaveUser(users, merged, now), Done(200, "Profile updated successfully", Some(saved)))
  }

  /** Resubmitting one's own email is never a conflict, whatever else the table holds. */
  lemma OwnEmailNoConflict(users: seq<User>, uid: Id, input: ProfileInput, now: Time)
    requires Find(users, uid, UserId).Some?
    requires input.email == Some(Find(users, uid, UserId).value.email)
    ensures !UpdateProfile(users, uid, input, now).reply.Invalid?
    ensures UpdateProfile(users, uid, input, now).reply.Done? ==>
      UpdateProfile(users, uid, input, now).reply.user.value.email == Find(users, uid, UserId).value.email
  {
  }
}

=== FILE: catalog_cascade.dfy ===
/**
 Deletion with `on_delete=CASCADE` on every declared parent link: deleting a row also
 deletes every row that reaches it through a chain of declared foreign keys.
 */
module CatalogCascade {

  import opened Wrappers
  import opened Ordering
  import opened Tables
  import opened CatalogStore

  /** The seven catalog tables. */
  datatype Table =
    | Categories | SubCategories | SubSubCategories | CategoryDescriptions
    | Products | ProductDescriptions | Rows

  /** The primary keys present in one table of the store. */
  function KeysOf(s: Store, t: Table): set<Id> {
    match t
    case Categories => Ids(s.categories, CategoryId)
    case SubCategories => Ids(s.subCategories, SubCategoryId)
    case SubSubCategories => Ids(s.subSubCategories, SubSubCategoryId)
    case CategoryDescriptions => Ids(s.categoryDescriptions, CategoryDescriptionId)
    case Products => Ids(s.products, ProductId)
    case ProductDescriptions => Ids(s.productDescriptions, ProductDescriptionId)
    case Rows => Ids(s.rows, RowId)
  }

  /** Every row of `r` is a row of `s`, table by table. */
  predicate SubStore(r: Store, s: Store) {
    && (forall x :: x in r.categories ==> x in s.categories)
    && (forall x :: x in r.subCategories ==> x in s.subCategories)
    && (forall x :: x in r.subSubCategories ==> x in s.subSubCategories)
    && (forall x :: x in r.categoryDescriptions ==> x in s.categoryDescriptions)
    && (forall x :: x in r.products ==> x in s.products)
    && (forall x :: x in r.productDescriptions ==> x in s.productDescriptions)
    && (forall x :: x in r.rows ==> x in s.rows)
  }

  /**
   Removes, level by level from the top, every row whose declared parent is no longer
   present. Each level is filtered against the already-pruned level above it.
   */
  function Prune(s: Store): (r: Store)
    ensures r.categories == s.categories
    ensures forall x :: x in r.subCategories <==>
      x in s.subCategories && x.category in Ids(r.categories, CategoryId)
    ensures forall x :: x in r.subSubCategories <==>
      x in s.subSubCategories && x.subCategory in Ids(r.subCategories, SubCategoryId)
    ensures forall x :: x in r.categoryDescriptions <==>
      x in s.categoryDescriptions && x.subSubCategory in Ids(r.subSubCategories, SubSubCategoryId)
    ensures forall x :: x in r.products <==>
      x in s.products && x.subSubCategory in Ids(r.subSubCategories, SubSubCategoryId)
    ensures forall x :: x in r.productDescriptions <==>
      x in s.productDescriptions && x.product in Ids(r.products, ProductId)
    ensures forall x :: x in r.rows <==>
      x in s.rows && x.description in Ids(r.productDescriptions, ProductDescriptionId)
  {
    var subs := KeepChildren(s.subCategories, SubCategoryParent, Ids(s.categories, CategoryId));
    var subSubs := KeepChildren(s.subSubCategories, SubSubCategoryParent, Ids(subs, SubCategoryId));
    var subSubIds := Ids(subSubs, SubSubCategoryId);
    var catDescs := KeepChildren(s.categoryDescriptions, CategoryDescriptionParent, subSubIds);
    var products := KeepChildren(s.products, ProductParent, subSubIds);
    var descs := KeepChildren(s.productDescriptions, ProductDescriptionParent, Ids(products, ProductId));
    var rows := KeepChildren(s.rows, RowParent, Ids(descs, ProductDescriptionId));
    Store(s.categories, subs, subSubs, catDescs, products, descs, rows)
  }

  /** After pruning every declared foreign key resolves, and only rows of `s` remain. */
  lemma PruneClosed(s: Store)
    ensures Closed(Prune(s)) && SubStore(Prune(s), s)
  {
  }

  /** On a store whose foreign keys all resolve, pruning deletes nothing. */
  lemma PruneIdentity(s: Store)
    requires Closed(s)
    ensures Prune(s) == s
  {
    var r := Prune(s);
    assert r.subCategories == s.subCategories;
    assert r.subSubCategories == s.subSubCategories;
    assert r.categoryDescriptions == s.categoryDescriptions;
    assert r.products == s.products;
    assert r.productDescriptions == s.productDescriptions;
    assert r.rows == s.rows;
  }

  /** Pruning deletes rows only, so it keeps every unique column unique. */
  lemma PruneKeepsUnique(s: Store)
    requires KeysUnique(s) && SlugsUnique(s)
    ensures KeysUnique(Prune(s)) && SlugsUnique(Prune(s))
  {
    var subs := KeepChildren(s.subCategories, SubCategoryParent, Ids(s.categories, CategoryId));
    var subSubs := KeepChildren(s.subSubCategories, SubSubCategoryParent, Ids(subs, SubCategoryId));
    var subSubIds := Ids(subSubs, SubSubCategoryId);
    var products := KeepChildren(s.products, ProductParent, subSubIds);
    var descs := KeepChildren(s.productDescriptions, ProductDescriptionParent, Ids(products, ProductId));
    KeepChildrenKeepsUnique(s.subCategories, SubCategoryParent, Ids(s.categories, CategoryId), SubCategoryId);
    KeepChildrenKeepsUnique(s.subCategories, SubCategoryParent, Ids(s.categories, CategoryId), SubCategorySlug);
    KeepChildrenKeepsUnique(s.subSubCategories, SubSubCategoryParent, Ids(subs, SubCategoryId), SubSubCategoryId);
    KeepChildrenKeepsUnique(s.subSubCategories, SubSubCategoryParent, Ids(subs, SubCategoryId), SubSubCategorySlug);
    KeepChildrenKeepsUnique(s.categoryDescriptions, CategoryDescriptionParent, subSubIds, CategoryDescriptionId);
    KeepChildrenKeepsUnique(s.products, ProductParent, subSubIds, ProductId);
    KeepChildrenKeepsUnique(s.productDescriptions, ProductDescriptionParent, Ids(products, ProductId),
      ProductDescriptionId);
    KeepChildrenKeepsUnique(s.rows, RowParent, Ids(descs, ProductDescriptionId), RowId);
  }

  /** Drops the row with key `id` from table `t`, touching nothing else. */
  function Remove(s: Store, t: Table, id: Id): Store {
    match t
    case Categories => s.(categories := Filter(s.categories, (x: Category) => x.id != id))
    case SubCategories => s.(subCategories := Filter(s.subCategories, (x: SubCategory) => x.id != id))
    case SubSubCategories =>
      s.(subSubCategories := Filter(s.subSubCategories, (x: SubSubCategory) => x.id != id))
    case CategoryDescriptions =>
      s.(categoryDescriptions := Filter(s.categoryDescriptions, (x: CategoryDescription) => x.id != id))
    case Products => s.(products := Filter(s.products, (x: Product) => x.id != id))
    case ProductDescriptions =>
      s.(productDescriptions := Filter(s.productDescriptions, (x: ProductDescription) => x.id != id))
    case Rows => s.(rows := Filter(s.rows, (x: DescriptionRow) => x.id != id))
  }

  /**
   `instance.delete()`: the row and, through CASCADE, all of its descendants. A row survives
   exactly when it was stored, is not the deleted row, and its parent survives.
   */
  function Delete(s: Store, t: Table, id: Id): (r: Store)
    ensures Closed(r)
    ensures SubStore(r, s)
    ensures id !in KeysOf(r, t)
    ensures forall x :: x in r.categories <==> x in s.categories && !(t == Categories && x.id == id)
    ensures forall x :: x in r.subCategories <==>
      && x in s.subCategories && !(t == SubCategories && x.id == id)
      && x.category in Ids(r.categories, CategoryId)
    ensures forall x :: x in r.subSubCategories <==>
      && x in s.subSubCategories && !(t == SubSubCategories && x.id == id)
      && x.subCategory in Ids(r.subCategories, SubCategoryId)
    ensures forall x :: x in r.categoryDescriptions <==>
      && x in s.categoryDescriptions && !(t == CategoryDescriptions && x.id == id)
      && x.subSubCategory in Ids(r.subSubCategories, SubSubCategoryId)
    ensures forall x :: x in r.products <==>
      && x in s.products && !(t == Products && x.id == id)
      && x.subSubCategory in Ids(r.subSubCategories, SubSubCategoryId)
    ensures forall x :: x in r.productDescriptions <==>
      && x in s.productDescriptions && !(t == ProductDescriptions && x.id == id)
      && x.product in Ids(r.products, ProductId)
    ensures forall x :: x in r.rows <==>
      && x in s.rows && !(t == Rows && x.id == id)
      && x.description in Ids(r.productDescriptions, ProductDescriptionId)
    ensures Valid(s) ==> Valid(r)
  {
    var removed := Remove(s, t, id);
    var r := Prune(removed);
    PruneClosed(removed);
    RemoveFacts(s, t, id);
    RemoveMembers(s, t, id);
    SubStoreKeys(r, removed, t);
    SubStoreTransitive(r, removed, s);
    if Valid(s) then
      RemoveKeepsUnique(s, t, id);
      PruneKeepsUnique(removed);
      r
    else
      r
  }

  lemma RemoveFacts(s: Store, t: Table, id: Id)
    ensures SubStore(Remove(s, t, id), s)
    ensures id !in KeysOf(Remove(s, t, id), t)
  {
  }

  lemma RemoveMembers(s: Store, t: Table, id: Id)
    ensures var r := Remove(s, t, id);
      && (forall x :: x in r.categories <==> x in s.categories && !(t == Categories && x.id == id))
      && (forall x :: x in r.subCategories <==> x in s.subCategories && !(t == SubCategories && x.id == id))
      && (forall x :: x in r.subSubCategories <==>
            x in s.subSubCategories && !(t == SubSubCategories && x.id == id))
      && (forall x :: x in r.categoryDescriptions <==>
            x in s.categoryDescriptions && !(t == CategoryDescriptions && x.id == id))
      && (forall x :: x in r.products <==> x in s.products && !(t == Products && x.id == id))
      && (forall x :: x in r.productDescriptions <==>
            x in s.productDescriptions && !(t == ProductDescriptions && x.id == id))
      && (forall x :: x in r.rows <==> x in s.rows && !(t == Rows && x.id == id))
  {
  }

  lemma SubStoreKeys(r: Store, s: Store, t: Table)
    requires SubStore(r, s)
    ensures KeysOf(r, t) <= KeysOf(s, t)
  {
  }

  lemma SubStoreTransitive(a: Store, b: Store, c: Store)
    requires SubStore(a, b) && SubStore(b, c)
    ensures SubStore(a, c)
  {
  }

  lemma RemoveKeepsUnique(s: Store, t: Table, id: Id)
    requires Valid(s)
    ensures KeysUnique(Remove(s, t, id)) && SlugsUnique(Remove(s, t, id))
  {
    match t
    case Categories =>
      FilterKeepsUnique(s.categories, (x: Category) => x.id != id, CategoryId);
      FilterKeepsUnique(s.categories, (x: Category) => x.id != id, CategorySlug);
    case SubCategories =>
      FilterKeepsUnique(s.subCategories, (x: SubCategory) => x.id != id, SubCategoryId);
      FilterKeepsUnique(s.subCategories, (x: SubCategory) => x.id != id, SubCategorySlug);
    case SubSubCategories =>
      FilterKeepsUnique(s.subSubCategories, (x: SubSubCategory) => x.id != id, SubSubCategoryId);
      FilterKeepsUnique(s.subSubCategories, (x: SubSubCategory) => x.id != id, SubSubCategorySlug);
    case CategoryDescriptions =>
      FilterKeepsUnique(s.categoryDescriptions, (x: CategoryDescription) => x.id != id, CategoryDescriptionId);
    case Products =>
      FilterKeepsUnique(s.products, (x: Product) => x.id != id, ProductId);
    case ProductDescriptions =>
      FilterKeepsUnique(s.productDescriptions, (x: ProductDescription) => x.id != id, ProductDescriptionId);
    case Rows =>
      FilterKeepsUnique(s.rows, (x: DescriptionRow) => x.id != id, RowId);
  }

  // Descent from a category along the declared links, in the store before deletion.

  ghost predicate SubSubUnder(s: Store, x: SubSubCategory, cid: Id) {
    exists y :: y in s.subCategories && y.id == x.subCategory && y.category == cid
  }

  ghost predicate ProductUnder(s: Store, x: Product, cid: Id) {
    exists y :: y in s.subSubCategories && y.id == x.subSubCategory && SubSubUnder(s, y, cid)
  }

  ghost predicate CategoryDescriptionUnder(s: Store, x: CategoryDescription, cid: Id) {
    exists y :: y in s.subSubCategories && y.id == x.subSubCategory && SubSubUnder(s, y, cid)
  }

  ghost predicate ProductDescriptionUnder(s: Store, x: ProductDescription, cid: Id) {
    exists y :: y in s.products && y.id == x.product && ProductUnder(s, y, cid)
  }

  ghost predicate RowUnder(s: Store, x: DescriptionRow, cid: Id) {
    exists y :: y in s.productDescriptions && y.id == x.description && ProductDescriptionUnder(s, y, cid)
  }

  /** The store left by deleting category `cid`. */
  function AfterCategoryDelete(s: Store, cid: Id): Store {
    Prune(Remove(s, Categories, cid))
  }

  lemma CategoryLevel(s: Store, cid: Id)
    requires Valid(s)
    ensures var r := AfterCategoryDelete(s, cid);
      && (forall x :: x in r.categories <==> x in s.categories && x.id != cid)
      && (forall x :: x in r.subCategories <==> x in s.subCategories && x.category != cid)
  {
    var r := AfterCategoryDelete(s, cid);
    CascadeStep(s.categories, r.categories, CategoryId, (c: Category) => c.id == cid,
      s.subCategories, r.subCategories, SubCategoryParent);
  }

  lemma SubSubCategoryLevel(s: Store, cid: Id)
    requires Valid(s)
    ensures var r := AfterCategoryDelete(s, cid);
      forall x :: x in r.subSubCategories <==> x in s.subSubCategories && !SubSubUnder(s, x, cid)
  {
    var r := AfterCategoryDelete(s, cid);
    CategoryLevel(s, cid);
    CascadeStep(s.subCategories, r.subCategories, SubCategoryId, (y: SubCategory) => y.category == cid,
      s.subSubCategories, r.subSubCategories, SubSubCategoryParent);
  }

  lemma CategoryDescriptionLevel(s: Store, cid: Id)
    requires Valid(s)
    ensures var r := AfterCategoryDelete(s, cid);
      forall x :: x in r.categoryDescriptions <==>
        x in s.categoryDescriptions && !CategoryDescriptionUnder(s, x, cid)
  {
    var r := AfterCategoryDelete(s, cid);
    SubSubCategoryLevel(s, cid);
    CascadeStep(s.subSubCategories, r.subSubCategories, SubSubCategoryId,
      (y: SubSubCategory) => SubSubUnder(s, y, cid),
      s.categoryDescriptions, r.categoryDescriptions, CategoryDescriptionParent);
  }

  lemma ProductLevel(s: Store, cid: Id)
    requires Valid(s)
    ensures var r := AfterCategoryDelete(s, cid);
      forall x :: x in r.products <==> x in s.products && !ProductUnder(s, x, cid)
  {
    var r := AfterCategoryDelete(s, cid);
    SubSubCategoryLevel(s, cid);
    CascadeStep(s.subSubCategories, r.subSubCategories, SubSubCategoryId,
      (y: SubSubCategory) => SubSubUnder(s, y, cid),
      s.products, r.products, ProductParent);
  }

  lemma DescriptionLevel(s: Store, cid: Id)
    requires Valid(s)
    ensures var r := AfterCategoryDelete(s, cid);
      forall x :: x in r.productDescriptions <==>
        x in s.productDescriptions && !ProductDescriptionUnder(s, x, cid)
  {
    var r := AfterCategoryDelete(s, cid);
    ProductLevel(s, cid);
    CascadeStep(s.products, r.products, ProductId, (y: Product) => ProductUnder(s, y, cid),
      s.productDescriptions, r.productDescriptions, ProductDescriptionParent);
  }

  lemma RowLevel(s: Store, cid: Id)
    requires Valid(s)
    ensures var r := AfterCategoryDelete(s, cid);
      forall x :: x in r.rows <==> x in s.rows && !RowUnder(s, x, cid)
  {
    var r := AfterCategoryDelete(s, cid);
    DescriptionLevel(s, cid);
    CascadeStep(s.productDescriptions, r.productDescriptions, ProductDescriptionId,
      (y: ProductDescription) => ProductDescriptionUnder(s, y, cid),
      s.rows, r.rows, RowParent);
  }

  /**
   Deleting a category removes exactly its descendants: a row of any table survives
   if and only if it does not descend from the deleted category.
   */
  lemma CategoryDeleteExact(s: Store, cid: Id)
    requires Valid(s)
    ensures var r := Delete(s, Categories, cid);
      && (forall x :: x in r.categories <==> x in s.categories && x.id != cid)
      && (forall x :: x in r.subCategories <==> x in s.subCategories && x.category != cid)
      && (forall x :: x in r.subSubCategories <==> x in s.subSubCategories && !SubSubUnder(s, x, cid))
      && (forall x :: x in r.categoryDescriptions <==>
            x in s.categoryDescriptions && !CategoryDescriptionUnder(s, x, cid))
      && (forall x :: x in r.products <==> x in s.products && !ProductUnder(s, x, cid))
      && (forall x :: x in r.productDescriptions <==>
            x in s.productDescriptions && !ProductDescriptionUnder(s, x, cid))
      && (forall x :: x in r.rows <==> x in s.rows && !RowUnder(s, x, cid))
  {
    assert Delete(s, Categories, cid) == AfterCategoryDelete(s, cid);
    CategoryLevel(s, cid);
    SubSubCategoryLevel(s, cid);
    CategoryDescriptionLevel(s, cid);
    ProductLevel(s, cid);
    DescriptionLevel(s, cid);
    RowLevel(s, cid);
  }
}

=== FILE: catalog_read.dfy ===
/**
 The nested read-model the catalog serializers build: category > active subcategories >
 active products > active description blocks > rows, each level filtered to the children
 of its parent and ordered by the serializer's `order_by` keys; and the category list
 queryset with its `is_active` query parameter.
 */
module CatalogRead {

  import opened Wrappers
  import opened Ordering
  import opened Tables
  import opened CatalogStore

  // ---------------------------------------------------------------- orderings

  /** `order_by('display_order', 'name')` on categories. */
  predicate CategoryLe(a: Category, b: Category) {
    OrderThenNameLe(a.displayOrder, a.name, b.displayOrder, b.name)
  }

  /** `order_by('display_order', 'name')` on subcategories. */
  predicate SubCategoryLe(a: SubCategory, b: SubCategory) {
    OrderThenNameLe(a.displayOrder, a.name, b.displayOrder, b.name)
  }

  /** `order_by('display_order', '-created_at')`: newest first among equal display orders. */
  predicate ProductLe(a: Product, b: Product) {
    a.displayOrder < b.displayOrder || (a.displayOrder == b.displayOrder && a.createdAt >= b.createdAt)
  }

  /** `order_by('display_order')` on description blocks. */
  predicate DescriptionLe(a: ProductDescription, b: ProductDescription) {
    a.displayOrder <= b.displayOrder
  }

  /** `order_by('display_order')` on rows, whose display order is the model's `order`. */
  predicate RowLe(a: DescriptionRow, b: DescriptionRow) {
    a.order <= b.order
  }

  lemma CategoryLeTotalPreorder()
    ensures TotalPreorder(CategoryLe)
  {
    forall a: Category, b: Category ensures CategoryLe(a, b) || CategoryLe(b, a) {
      OrderThenNameTotal(a.displayOrder, a.name, b.displayOrder, b.name);
    }
    forall a: Category, b: Category, c: Category | CategoryLe(a, b) && CategoryLe(b, c)
      ensures CategoryLe(a, c)
    {
      OrderThenNameTransitive(a.displayOrder, a.name, b.displayOrder, b.name, c.displayOrder, c.name);
    }
  }

  lemma SubCategoryLeTotalPreorder()
    ensures TotalPreorder(SubCategoryLe)
  {
    forall a: SubCategory, b: SubCategory ensures SubCategoryLe(a, b) || SubCategoryLe(b, a) {
      OrderThenNameTotal(a.displayOrder, a.name, b.displayOrder, b.name);
    }
    forall a: SubCategory, b: SubCategory, c: SubCategory | SubCategoryLe(a, b) && SubCategoryLe(b, c)
      ensures SubCategoryLe(a, c)
    {
      OrderThenNameTransitive(a.displayOrder, a.name, b.displayOrder, b.name, c.displayOrder, c.name);
    }
  }

  lemma PlainOrdersTotalPreorder()
    ensures TotalPreorder(ProductLe)
    ensures TotalPreorder(DescriptionLe)
    ensures TotalPreorder(RowLe)
  {
  }

  // ---------------------------------------------------------------- one level each

  /**
   `ProductCategorySerializer.get_subcategories`: exactly the active subcategories of the
   category, each as often as it is stored, ordered by display order then name.
   */
  function ActiveSubCategories(s: Store, categoryId: Id): (r: seq<SubCategory>)
    ensures forall x :: x in r <==> x in s.subCategories && x.category == categoryId && x.isActive
    ensures forall x ::
              multiset(r)[x] == if x.category == categoryId && x.isActive then multiset(s.subCategories)[x] else 0
    ensures forall i, j :: 0 <= i < j < |r| ==>
      OrderThenNameLe(r[i].displayOrder, r[i].name, r[j].displayOrder, r[j].name)
  {
    SubCategoryLeTotalPreorder();
    SortBy(Filter(s.subCategories, (x: SubCategory) => x.category == categoryId && x.isActive),
           SubCategoryLe)
  }

  /**
   `ProductSubCategorySerializer.get_products`: exactly the active products linked to the
   subcategory, ordered by display order, newest first among equal display orders.
   */
  function ActiveProducts(s: Store, subCategoryId: Id): (r: seq<Product>)
    ensures forall x :: x in r <==> x in s.products && x.subCategory == subCategoryId && x.isActive
    ensures forall x ::
              multiset(r)[x] == if x.subCategory == subCategoryId && x.isActive then multiset(s.products)[x] else 0
    ensures forall i, j :: 0 <= i < j < |r| ==>
      r[i].displayOrder < r[j].displayOrder
      || (r[i].displayOrder == r[j].displayOrder && r[i].createdAt >= r[j].createdAt)
  {
    PlainOrdersTotalPreorder();
    SortBy(Filter(s.products, (x: Product) => x.subCategory == subCategoryId && x.isActive), ProductLe)
  }

  /**
   `ProductDetailSerializer.get_descriptions`: exactly the active description blocks of
   the product, ordered by display order.
   */
  function ActiveDescriptions(s: Store, productId: Id): (r: seq<ProductDescription>)
    ensures forall x :: x in r <==> x in s.productDescriptions && x.product == productId && x.isActive
    ensures forall x ::
              multiset(r)[x] == if x.product == productId && x.isActive then multiset(s.productDescriptions)[x] else 0
    ensures forall i, j :: 0 <= i < j < |r| ==> r[i].displayOrder <= r[j].displayOrder
  {
    PlainOrdersTotalPreorder();
    SortBy(Filter(s.productDescriptions, (x: ProductDescription) => x.product == productId && x.isActive),
           DescriptionLe)
  }

  /**
   `ProductDescriptionSerializer.get_rows`: every row of the block (rows carry no active
   flag), ordered by display order.
   */
  function BlockRows(s: Store, descriptionId: Id): (r: seq<DescriptionRow>)
    ensures forall x :: x in r <==> x in s.rows && x.description == descriptionId
    ensures forall x ::
              multiset(r)[x] == if x.description == descriptionId then multiset(s.rows)[x] else 0
    ensures forall i, j :: 0 <= i < j < |r| ==> r[i].order <= r[j].order
  {
    PlainOrdersTotalPreorder();
    SortBy(Filter(s.rows, (x: DescriptionRow) => x.description == descriptionId), RowLe)
  }

  /** The subcategory's `categorydescription_set`, unfiltered and in table order. */
  function SubCategoryDescriptions(s: Store, subCategoryId: Id): (r: seq<CategoryDescription>)
    ensures forall x :: x in r <==> x in s.categoryDescriptions && x.subCategory == subCategoryId
  {
    Filter(s.categoryDescriptions, (x: CategoryDescription) => x.subCategory == subCategoryId)
  }

  // ---------------------------------------------------------------- nested views

  datatype DescriptionView = DescriptionView(block: ProductDescription, rows: seq<DescriptionRow>)

  datatype ProductView = ProductView(product: Product, descriptions: seq<DescriptionView>)

  datatype SubCategoryView = SubCategoryView(
    subCategory: SubCategory, descriptions: seq<CategoryDescription>, products: seq<ProductView>)

  datatype CategoryView = CategoryView(category: Category, subCategories: seq<SubCategoryView>)

  function DescriptionViewOf(s: Store, d: ProductDescription): DescriptionView {
    DescriptionView(d, BlockRows(s, d.id))
  }

  /** `ProductDetailSerializer`: a product with its active description blocks. */
  function ProductViewOf(s: Store, p: Product): ProductView {
    var blocks := ActiveDescriptions(s, p.id);
    ProductView(p, seq(|blocks|, i requires 0 <= i < |blocks| => DescriptionViewOf(s, blocks[i])))
  }

  /** `ProductSubCategorySerializer`: a subcategory with its descriptions and active products. */
  function SubCategoryViewOf(s: Store, c: SubCategory): SubCategoryView {
    var products := ActiveProducts(s, c.id);
    SubCategoryView(c, SubCategoryDescriptions(s, c.id),
      seq(|products|, i requires 0 <= i < |products| => ProductViewOf(s, products[i])))
  }

  /** `ProductCategorySerializer`: a category with its active subcategories. */
  function CategoryViewOf(s: Store, c: Category): CategoryView {
    var subs := ActiveSubCategories(s, c.id);
    CategoryView(c, seq(|subs|, i requires 0 <= i < |subs| => SubCategoryViewOf(s, subs[i])))
  }

  /** A block view: a stored, active block of product `productId` with its own rows only. */
  ghost predicate BlockViewSound(s: Store, productId: Id, b: DescriptionView) {
    && b.block in s.productDescriptions && b.block.product == productId && b.block.isActive
    && (forall x :: x in b.rows ==> x in s.rows && x.description == b.block.id)
  }

  /** A product view: a stored product whose every block view is sound. */
  ghost predicate ProductViewSound(s: Store, v: ProductView) {
    forall i :: 0 <= i < |v.descriptions| ==> BlockViewSound(s, v.product.id, v.descriptions[i])
  }

  /** A product view surfaced under subcategory `subCategoryId`: stored, active, linked to it. */
  ghost predicate NestedProductSound(s: Store, subCategoryId: Id, v: ProductView) {
    && v.product in s.products && v.product.subCategory == subCategoryId && v.product.isActive
    && ProductViewSound(s, v)
  }

  /** A subcategory view surfaced under category `categoryId`. */
  ghost predicate SubCategoryViewSound(s: Store, categoryId: Id, v: SubCategoryView) {
    && v.subCategory in s.subCategories && v.subCategory.category == categoryId && v.subCategory.isActive
    && (forall d :: d in v.descriptions ==> d in s.categoryDescriptions && d.subCategory == v.subCategory.id)
    && (forall i :: 0 <= i < |v.products| ==> NestedProductSound(s, v.subCategory.id, v.products[i]))
  }

  /**
   A category view surfaces only stored rows, each under the parent whose view contains
   it, and only active subcategories, products and description blocks.
   */
  ghost predicate CategoryViewSound(s: Store, v: CategoryView) {
    forall i :: 0 <= i < |v.subCategories| ==> SubCategoryViewSound(s, v.category.id, v.subCategories[i])
  }

  lemma ProductViewIsSound(s: Store, p: Product)
    ensures ProductViewSound(s, ProductViewOf(s, p))
  {
    var blocks := ActiveDescriptions(s, p.id);
    var v := ProductViewOf(s, p);
    forall i | 0 <= i < |v.descriptions| ensures BlockViewSound(s, p.id, v.descriptions[i]) {
      assert v.descriptions[i] == DescriptionViewOf(s, blocks[i]);
      assert blocks[i] in blocks;
    }
  }

  lemma SubCategoryViewIsSound(s: Store, categoryId: Id, c: SubCategory)
    requires c in s.subCategories && c.category == categoryId && c.isActive
    ensures SubCategoryViewSound(s, categoryId, SubCategoryViewOf(s, c))
  {
    var products := ActiveProducts(s, c.id);
    var v := SubCategoryViewOf(s, c);
    forall i | 0 <= i < |v.products| ensures NestedProductSound(s, c.id, v.products[i]) {
      assert v.products[i] == ProductViewOf(s, products[i]);
      assert products[i] in products;
      ProductViewIsSound(s, products[i]);
    }
  }

  /** The materialized category tree honours the active filter and parent links at every level. */
  lemma CategoryViewIsSound(s: Store, c: Category)
    ensures CategoryViewSound(s, CategoryViewOf(s, c))
  {
    var subs := ActiveSubCategories(s, c.id);
    var v := CategoryViewOf(s, c);
    forall i | 0 <= i < |v.subCategories| ensures SubCategoryViewSound(s, c.id, v.subCategories[i]) {
      assert v.subCategories[i] == SubCategoryViewOf(s, subs[i]);
      assert subs[i] in subs;
      SubCategoryViewIsSound(s, c.id, subs[i]);
    }
  }

  // ---------------------------------------------------------------- the list queryset

  /** ASCII lower-casing; only ASCII letters lower-case to the letters of "true". */
  function LowerAscii(c: char): char {
    if 'A' <= c <= 'Z' then (c as int + 32) as char else c
  }

  /** `param.lower() == 'true'`. */
  function IsTrueParam(p: string): (b: bool)
    ensures b <==> |p| == 4 && p[0] in "tT" && p[1] in "rR" && p[2] in "uU" && p[3] in "eE"
  {
    |p| == 4 && LowerAscii(p[0]) == 't' && LowerAscii(p[1]) == 'r'
    && LowerAscii(p[2]) == 'u' && LowerAscii(p[3]) == 'e'
  }

  /**
   `ProductCategoryViewSet.get_queryset`: every category when the `is_active` parameter is
   absent; otherwise those whose flag equals "the parameter reads true". Ordered by
   display order then name.
   */
  function CategoryQueryset(s: Store, isActive: Option<string>): (r: seq<Category>)
    ensures isActive.None? ==> multiset(r) == multiset(s.categories)
    ensures isActive.Some? ==>
      forall x ::
        multiset(r)[x] == if x.isActive == IsTrueParam(isActive.value) then multiset(s.categories)[x] else 0
    ensures forall i, j :: 0 <= i < j < |r| ==>
      OrderThenNameLe(r[i].displayOrder, r[i].name, r[j].displayOrder, r[j].name)
  {
    CategoryLeTotalPreorder();
    match isActive
    case None => SortBy(s.categories, CategoryLe)
    case Some(p) =>
      var wanted := IsTrueParam(p);
      SortBy(Filter(s.categories, (x: Category) => x.isActive == wanted), CategoryLe)
  }

  /** Any parameter other than a case-insensitive "true" lists the inactive categories. */
  lemma NonTrueParamSelectsInactive(s: Store, p: string, x: Category)
    requires !IsTrueParam(p)
    ensures x in CategoryQueryset(s, Some(p)) <==> x in s.categories && !x.isActive
  {
    var r := CategoryQueryset(s, Some(p));
    assert x in r <==> x in multiset(r);
    assert x in s.categories <==> x in multiset(s.categories);
  }
}

=== FILE: catalog_store.dfy ===
/**
 The catalog tables: ProductCategory > ProductSubCategory > ProductSubSubCategory >
 (CategoryDescription, Product) > ProductDescription > ProductDescriptionRow.

 Fields the serializers and views read but the model classes do not declare
 (`is_active`, `display_order`, `created_at` on Product, the Product and
 CategoryDescription link to a subcategory, `is_active`/`display_order` on
 ProductDescription) are carried as plain record fields. Money is whole cents.
 */
module CatalogStore {

  import opened Wrappers
  import opened Tables

  /** DecimalField(decimal_places=2), as an integer number of cents. */
  type Cents = int

  /** A timestamp, in microseconds. */
  type Time = int

  /** The `PRODUCT_TYPE` choices. */
  datatype ProductType = Hardware | Software

  datatype Category = Category(
    id: Id, name: Option<string>, slug: string, isActive: bool, displayOrder: int)

  datatype SubCategory = SubCategory(
    id: Id, category: Id, name: Option<string>, slug: string, isActive: bool, displayOrder: int)

  datatype SubSubCategory = SubSubCategory(
    id: Id, subCategory: Id, name: Option<string>, slug: string)

  /** `subSubCategory` is the declared parent link; `subCategory` is the link the serializers read. */
  datatype CategoryDescription = CategoryDescription(
    id: Id, subSubCategory: Id, subCategory: Id, title: Option<string>, description: string)

  /** `subSubCategory` is the declared parent link; `subCategory` is the link the serializers read. */
  datatype Product = Product(
    id: Id, subSubCategory: Id, subCategory: Id, name: Option<string>,
    msrp: Cents, price: Cents, stock: int, isInStock: bool, productType: ProductType,
    description: string, isActive: bool, isFeatured: bool, displayOrder: int, createdAt: Time)

  datatype ProductDescription = ProductDescription(
    id: Id, product: Id, title: Option<string>, subtitle: Option<string>,
    isActive: bool, displayOrder: int)

  /** `order` is the model's `PositiveIntegerField`, read by the serializers as `display_order`. */
  datatype DescriptionRow = DescriptionRow(
    id: Id, description: Id, key: Option<string>, value: Option<string>, order: nat)

  datatype Store = Store(
    categories: seq<Category>,
    subCategories: seq<SubCategory>,
    subSubCategories: seq<SubSubCategory>,
    categoryDescriptions: seq<CategoryDescription>,
    products: seq<Product>,
    productDescriptions: seq<ProductDescription>,
    rows: seq<DescriptionRow>)

  // Key and slug accessors, passed to the generic table operations.
  function CategoryId(c: Category): Id { c.id }
  function SubCategoryId(c: SubCategory): Id { c.id }
  function SubSubCategoryId(c: SubSubCategory): Id { c.id }
  function CategoryDescriptionId(d: CategoryDescription): Id { d.id }
  function ProductId(p: Product): Id { p.id }
  function ProductDescriptionId(d: ProductDescription): Id { d.id }
  function RowId(r: DescriptionRow): Id { r.id }
  function SubCategoryParent(c: SubCategory): Id { c.category }
  function SubSubCategoryParent(c: SubSubCategory): Id { c.subCategory }
  function CategoryDescriptionParent(d: CategoryDescription): Id { d.subSubCategory }
  function ProductParent(p: Product): Id { p.subSubCategory }
  function ProductDescriptionParent(d: ProductDescription): Id { d.product }
  function RowParent(r: DescriptionRow): Id { r.description }
  function CategorySlug(c: Category): string { c.slug }
  function SubCategorySlug(c: SubCategory): string { c.slug }
  function SubSubCategorySlug(c: SubSubCategory): string { c.slug }

  /** Every primary key is unique in its table. */
  predicate KeysUnique(s: Store) {
    && UniqueBy(s.categories, CategoryId)
    && UniqueBy(s.subCategories, SubCategoryId)
    && UniqueBy(s.subSubCategories, SubSubCategoryId)
    && UniqueBy(s.categoryDescriptions, CategoryDescriptionId)
    && UniqueBy(s.products, ProductId)
    && UniqueBy(s.productDescriptions, ProductDescriptionId)
    && UniqueBy(s.rows, RowId)
  }

  /** The three `slug = CharField(unique=True)` constraints, each over its own table. */
  predicate SlugsUnique(s: Store) {
    && UniqueBy(s.categories, CategorySlug)
    && UniqueBy(s.subCategories, SubCategorySlug)
    && UniqueBy(s.subSubCategories, SubSubCategorySlug)
  }

  /** Every declared foreign key refers to an existing parent row. */
  predicate Closed(s: Store) {
    && (forall x :: x in s.subCategories ==> x.category in Ids(s.categories, CategoryId))
    && (forall x :: x in s.subSubCategories ==> x.subCategory in Ids(s.subCategories, SubCategoryId))
    && (forall x :: x in s.categoryDescriptions ==>
          x.subSubCategory in Ids(s.subSubCategories, SubSubCategoryId))
    && (forall x :: x in s.products ==> x.subSubCategory in Ids(s.subSubCategories, SubSubCategoryId))
    && (forall x :: x in s.productDescriptions ==> x.product in Ids(s.products, ProductId))
    && (forall x :: x in s.rows ==> x.description in Ids(s.productDescriptions, ProductDescriptionId))
  }

  /** The database constraints: keys, unique slugs and foreign keys. */
  predicate Valid(s: Store) {
    KeysUnique(s) && SlugsUnique(s) && Closed(s)
  }

  /** A write the database refuses. */
  datatype StoreError =
    | DuplicateSlug(slug: string)
    | MissingParent(parent: Id)
}

=== FILE: catalog_write.dfy ===
/**
 The write rules of the catalog models and the product write serializer: slug derivation
 on the three category levels, row order allocation, and product validation with the
 model's choices and defaults.
 */
module CatalogWrite {

  import opened Wrappers
  import opened Tables
  import opened CatalogStore

  // ---------------------------------------------------------------- slugs

  /** `str(name)`: the text `slugify` receives; Python renders a NULL name as "None". */
  function NameText(name: Option<string>): string {
    match name
    case None => "None"
    case Some(n) => n
  }

  /**
   The slug `save()` stores: the current slug when it is non-empty, otherwise
   `slugify(name)`. `slugify` is the framework's normaliser, taken as a parameter.
   */
  function SlugOnSave(slug: string, name: Option<string>, slugify: string -> string): (r: string)
    ensures slug != "" ==> r == slug
    ensures slug == "" ==> r == slugify(NameText(name))
  {
    if slug == "" then slugify(NameText(name)) else slug
  }

  /**
   Once a save has stored a non-empty slug, later saves keep it, whatever the name
   becomes; only a slug that `slugify` rendered empty is derived again.
   */
  lemma SlugStableAcrossSaves(slug: string, name: Option<string>, newName: Option<string>,
                              slugify: string -> string)
    requires SlugOnSave(slug, name, slugify) != ""
    ensures SlugOnSave(SlugOnSave(slug, name, slugify), newName, slugify)
         == SlugOnSave(slug, name, slugify)
  {
  }

  /** `ProductCategory.save`: derive the slug if absent, then INSERT or UPDATE. */
  function SaveCategory(s: Store, c: Category, slugify: string -> string): (r: Result<Store, StoreError>)
    ensures r.Err? <==> TakenByOther(s.categories, c.id, SlugOnSave(c.slug, c.name, slugify), CategoryId, CategorySlug)
    ensures r.Err? ==> r.error == DuplicateSlug(SlugOnSave(c.slug, c.name, slugify))
    ensures r.Ok? ==>
      && c.(slug := SlugOnSave(c.slug, c.name, slugify)) in r.value.categories
      && r.value.(categories := s.categories) == s
      && (forall x :: x in s.categories && x.id != c.id ==> x in r.value.categories)
      && (forall x :: x in r.value.categories ==>
            x == c.(slug := SlugOnSave(c.slug, c.name, slugify)) || x in s.categories)
    ensures r.Ok? && Valid(s) ==> Valid(r.value)
  {
    var saved := c.(slug := SlugOnSave(c.slug, c.name, slugify));
    if TakenByOther(s.categories, saved.id, saved.slug, CategoryId, CategorySlug) then
      Err(DuplicateSlug(saved.slug))
    else
      var r := s.(categories := Upsert(s.categories, saved, CategoryId));
      UpsertKeepsUnique(s.categories, saved, CategoryId, CategorySlug);
      Ok(r)
  }

  /** `ProductSubCategory.save`: as for categories, plus the foreign key to the category. */
  function SaveSubCategory(s: Store, c: SubCategory, slugify: string -> string)
    : (r: Result<Store, StoreError>)
    ensures r.Err? <==>
      || TakenByOther(s.subCategories, c.id, SlugOnSave(c.slug, c.name, slugify), SubCategoryId, SubCategorySlug)
      || c.category !in Ids(s.categories, CategoryId)
    ensures TakenByOther(s.subCategories, c.id, SlugOnSave(c.slug, c.name, slugify), SubCategoryId, SubCategorySlug)
      ==> r == Err(DuplicateSlug(SlugOnSave(c.slug, c.name, slugify)))
    ensures !TakenByOther(s.subCategories, c.id, SlugOnSave(c.slug, c.name, slugify), SubCategoryId, SubCategorySlug)
            && c.category !in Ids(s.categories, CategoryId)
      ==> r == Err(MissingParent(c.category))
    ensures r.Ok? ==>
      && c.(slug := SlugOnSave(c.slug, c.name, slugify)) in r.value.subCategories
      && r.value.(subCategories := s.subCategories) == s
      && (forall x :: x in s.subCategories && x.id != c.id ==> x in r.value.subCategories)
      && (forall x :: x in r.value.subCategories ==>
            x == c.(slug := SlugOnSave(c.slug, c.name, slugify)) || x in s.subCategories)
    ensures r.Ok? && Valid(s) ==> Valid(r.value)
  {
    var saved := c.(slug := SlugOnSave(c.slug, c.name, slugify));
    if TakenByOther(s.subCategories, saved.id, saved.slug, SubCategoryId, SubCategorySlug) then
      Err(DuplicateSlug(saved.slug))
    else if saved.category !in Ids(s.categories, CategoryId) then
      Err(MissingParent(saved.category))
    else
      var r := s.(subCategories := Upsert(s.subCategories, saved, SubCategoryId));
      UpsertKeepsUnique(s.subCategories, saved, SubCategoryId, SubCategorySlug);
      Ok(r)
  }

  /** `ProductSubSubCategory.save`: as for categories, plus the foreign key to the subcategory. */
  function SaveSubSubCategory(s: Store, c: SubSubCategory, slugify: string -> string)
    : (r: Result<Store, StoreError>)
    ensures r.Err? <==>
      || TakenByOther(s.subSubCategories, c.id, SlugOnSave(c.slug, c.name, slugify),
                      SubSubCategoryId, SubSubCategorySlug)
      || c.subCategory !in Ids(s.subCategories, SubCategoryId)
    ensures TakenByOther(s.subSubCategories, c.id, SlugOnSave(c.slug, c.name, slugify),
                         SubSubCategoryId, SubSubCategorySlug)
      ==> r == Err(DuplicateSlug(SlugOnSave(c.slug, c.name, slugify)))
    ensures !TakenByOther(s.subSubCategories, c.id, SlugOnSave(c.slug, c.name, slugify),
                          SubSubCategoryId, SubSubCategorySlug)
            && c.subCategory !in Ids(s.subCategories, SubCategoryId)
      ==> r == Err(MissingParent(c.subCategory))
    ensures r.Ok? ==>
      && c.(slug := SlugOnSave(c.slug, c.name, slugify)) in r.value.subSubCategories
      && r.value.(subSubCategories := s.subSubCategories) == s
      && (forall x :: x in s.subSubCategories && x.id != c.id ==> x in r.value.subSubCategories)
      && (forall x :: x in r.value.subSubCategories ==>
            x == c.(slug := SlugOnSave(c.slug, c.name, slugify)) || x in s.subSubCategories)
    ensures r.Ok? && Valid(s) ==> Valid(r.value)
  {
    var saved := c.(slug := SlugOnSave(c.slug, c.name, slugify));
    if TakenByOther(s.subSubCategories, saved.id, saved.slug, SubSubCategoryId, SubSubCategorySlug) then
      Err(DuplicateSlug(saved.slug))
    else if saved.subCategory !in Ids(s.subCategories, SubCategoryId) then
      Err(MissingParent(saved.subCategory))
    else
      var r := s.(subSubCategories := Upsert(s.subSubCategories, saved, SubSubCategoryId));
      UpsertKeepsUnique(s.subSubCategories, saved, SubSubCategoryId, SubSubCategorySlug);
      Ok(r)
  }

  /**
   Two categories whose names slugify alike cannot both be stored: the second save
   fails instead of receiving a suffixed slug.
   */
  lemma SameSlugRejected(s: Store, a: Category, b: Category, slugify: string -> string)
    requires a.id != b.id && a.slug == "" && b.slug == ""
    requires slugify(NameText(a.name)) == slugify(NameText(b.name))
    requires SaveCategory(s, a, slugify).Ok?
    ensures SaveCategory(SaveCategory(s, a, slugify).value, b, slugify)
         == Err(DuplicateSlug(slugify(NameText(a.name))))
  {
    var s1 := SaveCategory(s, a, slugify).value;
    var slug := slugify(NameText(a.name));
    assert a.(slug := slug) in s1.categories;
    assert TakenByOther(s1.categories, b.id, slug, CategoryId, CategorySlug);
  }

  // ---------------------------------------------------------------- row order

  /** `Max('order')` over the rows of description `d`, with an empty set read as 0. */
  function MaxSiblingOrder(rows: seq<DescriptionRow>, d: Id): (m: nat)
    ensures forall x :: x in rows && x.description == d ==> x.order <= m
    ensures m == 0 || exists x :: x in rows && x.description == d && x.order == m
  {
    if rows == [] then 0
    else
      assert rows == [rows[0]] + rows[1..];
      var rest := MaxSiblingOrder(rows[1..], d);
      if rows[0].description == d && rows[0].order > rest then rows[0].order else rest
  }

  /**
   The order `ProductDescriptionRow.save` stores: an explicit non-zero order verbatim,
   otherwise one more than the largest order among the rows of the same description.
   */
  function OrderOnSave(rows: seq<DescriptionRow>, row: DescriptionRow): (o: nat)
    ensures row.order != 0 ==> o == row.order
    ensures row.order == 0 ==> o >= 1
    ensures row.order == 0 ==> forall x :: x in rows && x.description == row.description ==> x.order < o
    ensures row.order == 0 && o > 1 ==>
      exists x :: x in rows && x.description == row.description && x.order == o - 1
  {
    if row.order == 0 then MaxSiblingOrder(rows, row.description) + 1 else row.order
  }

  /** Rows of other descriptions play no part in the allocated order. */
  lemma OrderIgnoresOtherDescriptions(rows1: seq<DescriptionRow>, rows2: seq<DescriptionRow>,
                                      row: DescriptionRow)
    requires forall x: DescriptionRow :: x.description == row.description ==> (x in rows1 <==> x in rows2)
    ensures OrderOnSave(rows1, row) == OrderOnSave(rows2, row)
  {
    var m1 := MaxSiblingOrder(rows1, row.description);
    var m2 := MaxSiblingOrder(rows2, row.description);
    if m1 != 0 {
      var x :| x in rows1 && x.description == row.description && x.order == m1;
      assert x in rows2;
    }
    if m2 != 0 {
      var x :| x in rows2 && x.description == row.description && x.order == m2;
      assert x in rows1;
    }
  }

  /** `ProductDescriptionRow.save`: allocate the order when it is 0, then INSERT or UPDATE. */
  function SaveRow(s: Store, row: DescriptionRow): (r: Result<Store, StoreError>)
    ensures r.Err? <==> row.description !in Ids(s.productDescriptions, ProductDescriptionId)
    ensures r.Err? ==> r.error == MissingParent(row.description)
    ensures r.Ok? ==> var saved := row.(order := OrderOnSave(s.rows, row));
      && saved in r.value.rows
      && r.value.(rows := s.rows) == s
      && (forall x :: x in s.rows && x.id != row.id ==> x in r.value.rows)
      && (forall x :: x in r.value.rows ==> x == saved || x in s.rows)
    ensures r.Ok? && Valid(s) ==> Valid(r.value)
  {
    if row.description !in Ids(s.productDescriptions, ProductDescriptionId) then
      Err(MissingParent(row.description))
    else
      var saved := row.(order := OrderOnSave(s.rows, row));
      Ok(s.(rows := Upsert(s.rows, saved, RowId)))
  }

  /**
   Appending rows without an explicit order to one description yields strictly
   increasing orders: the next allocation exceeds the one just stored.
   */
  lemma AppendedOrdersIncrease(s: Store, first: DescriptionRow, next: DescriptionRow)
    requires first.order == 0 && next.order == 0
    requires first.description == next.description
    requires SaveRow(s, first).Ok?
    ensures OrderOnSave(SaveRow(s, first).value.rows, next) > OrderOnSave(s.rows, first)
  {
    var saved := first.(order := OrderOnSave(s.rows, first));
    assert saved in SaveRow(s, first).value.rows;
  }

  // ---------------------------------------------------------------- products

  /** The largest amount a `DecimalField(max_digits=10, decimal_places=2)` holds, in cents. */
  const MaxMoney: Cents := 9_999_999_999

  /** A Python truthiness test on an optional decimal: present and non-zero. */
  predicate Truthy(v: Option<Cents>) {
    v.Some? && v.value != 0
  }

  /** The fields of a product write the price check reads. */
  datatype PriceData = PriceData(price: Option<Cents>, msrp: Option<Cents>)

  /**
   `ProductWriteSerializer.validate`: when both price and msrp are truthy, price may not
   exceed msrp; otherwise no comparison is made. Valid data is returned unchanged.
   */
  function ValidatePrices(data: PriceData): (r: Result<PriceData, string>)
    ensures r.Err? <==> Truthy(data.price) && Truthy(data.msrp) && data.price.value > data.msrp.value
    ensures r.Err? ==> r.error == "Price cannot be greater than MSRP"
    ensures r.Ok? ==> r.value == data
  {
    if Truthy(data.price) && Truthy(data.msrp) && data.price.value > data.msrp.value then
      Err("Price cannot be greater than MSRP")
    else
      Ok(data)
  }

  /** The stored value of each `PRODUCT_TYPE` choice. */
  function ProductTypeValue(t: ProductType): string {
    match t
    case Hardware => "hardware"
    case Software => "software"
  }

  /** The choice field: only the two stored values are accepted. */
  function ParseProductType(v: string): (r: Result<ProductType, string>)
    ensures r.Ok? <==> v == "hardware" || v == "software"
    ensures r.Ok? ==> ProductTypeValue(r.value) == v
  {
    if v == "hardware" then Ok(Hardware)
    else if v == "software" then Ok(Software)
    else Err("\"" + v + "\" is not a valid choice.")
  }

  lemma ProductTypeRoundTrip(t: ProductType)
    ensures ParseProductType(ProductTypeValue(t)) == Ok(t)
  {
  }

  /**
   A product create request; absent optional fields take the model defaults. `msrp`,
   `price` and `description` have no default, so the serializer requires them.
   */
  datatype ProductInput = ProductInput(
    subSubCategory: Id, subCategory: Id, name: Option<string>, productType: Option<string>,
    msrp: Option<Cents>, price: Option<Cents>, stock: Option<int>, isInStock: Option<bool>,
    description: Option<string>, isActive: bool, isFeatured: bool, displayOrder: int)

  /** Why a product write is refused: field errors, the price check, or the database. */
  datatype ProductError =
    | FieldErrors(errors: map<string, string>)
    | PriceError(message: string)
    | Refused(cause: StoreError)

  /** Field-level validation of a required decimal field. */
  function MoneyError(v: Option<Cents>): Option<string> {
    match v
    case None => Some("This field is required.")
    case Some(c) => if -MaxMoney <= c <= MaxMoney then None
                    else Some("Ensure that there are no more than 10 digits in total.")
  }

  /** The per-field errors of a product create request (empty when every field is valid). */
  function ProductFieldErrors(input: ProductInput): (e: map<string, string>)
    ensures "msrp" in e <==> MoneyError(input.msrp).Some?
    ensures "price" in e <==> MoneyError(input.price).Some?
    ensures "product_type" in e <==> input.productType.Some? && ParseProductType(input.productType.value).Err?
    ensures "description" in e <==> input.description.None?
    ensures "description" in e ==> e["description"] == "This field is required."
    ensures e.Keys <= {"msrp", "price", "product_type", "description"}
  {
    assert |"msrp"| == 4 && |"price"| == 5 && |"description"| == 11 && |"product_type"| == 12;
    var kind := input.productType;
    var e0: map<string, string> := map[];
    var e1 := if MoneyError(input.msrp).Some? then e0["msrp" := MoneyError(input.msrp).value] else e0;
    var e2 := if MoneyError(input.price).Some? then e1["price" := MoneyError(input.price).value] else e1;
    var e3 := if kind.Some? && ParseProductType(kind.value).Err?
              then e2["product_type" := ParseProductType(kind.value).error] else e2;
    if input.description.None? then e3["description" := "This field is required."] else e3
  }

  /** The stored price relation: price does not exceed msrp when both are non-zero. */
  predicate PriceRule(p: Product) {
    p.price == 0 || p.msrp == 0 || p.price <= p.msrp
  }

  /**
   A product create through the write serializer: field validation, then the price
   check, then the model defaults (`product_type` hardware, `stock` 100, in stock), then
   the INSERT with a fresh key and the creation time `now`.
   */
  function CreateProduct(s: Store, input: ProductInput, now: Time)
    : (r: Result<(Store, Product), ProductError>)
    ensures ProductFieldErrors(input) != map[] ==> r == Err(FieldErrors(ProductFieldErrors(input)))
    ensures ProductFieldErrors(input) == map[] && input.price.value > input.msrp.value
            && input.price.value != 0 && input.msrp.value != 0
            ==> r == Err(PriceError("Price cannot be greater than MSRP"))
    ensures r.Ok? ==>
      && r.value.0.products == s.products + [r.value.1]
      && r.value.0.(products := s.products) == s
    ensures r.Ok? ==>
      && r.value.1.id !in Ids(s.products, ProductId)
      && r.value.1.subSubCategory == input.subSubCategory
      && r.value.1.createdAt == now
      && PriceRule(r.value.1)
      && (input.productType.None? ==> r.value.1.productType == Hardware)
      && (input.productType.Some? ==> ProductTypeValue(r.value.1.productType) == input.productType.value)
      && (input.stock.None? ==> r.value.1.stock == 100)
      && (input.stock.Some? ==> r.value.1.stock == input.stock.value)
      && (input.isInStock.None? ==> r.value.1.isInStock)
    ensures r.Ok? ==> ProductFieldErrors(input) == map[] && r.value.1 == NewProduct(s, input, now)
    ensures ProductFieldErrors(input) == map[] && ValidatePrices(PriceData(input.price, input.msrp)).Ok? ==>
      (r.Ok? <==> input.subSubCategory in Ids(s.subSubCategories, SubSubCategoryId))
    ensures ProductFieldErrors(input) == map[] && ValidatePrices(PriceData(input.price, input.msrp)).Ok?
            && input.subSubCategory !in Ids(s.subSubCategories, SubSubCategoryId)
            ==> r == Err(Refused(MissingParent(input.subSubCategory)))
    ensures r.Ok? && Valid(s) ==> Valid(r.value.0)
  {
    var errors := ProductFieldErrors(input);
    if errors != map[] then Err(FieldErrors(errors))
    else
      var prices := ValidatePrices(PriceData(input.price, input.msrp));
      if prices.Err? then Err(PriceError(prices.error))
      else if input.subSubCategory !in Ids(s.subSubCategories, SubSubCategoryId) then
        Err(Refused(MissingParent(input.subSubCategory)))
      else
        var p := NewProduct(s, input, now);
        assert PriceRule(p);
        var products := Upsert(s.products, p, ProductId);
        assert products == s.products + [p];
        AddProductKeepsValid(s, p);
        Ok((s.(products := products), p))
  }

  /** The product a valid create request stores: the input with the model defaults filled in. */
  function NewProduct(s: Store, input: ProductInput, now: Time): (p: Product)
    requires ProductFieldErrors(input) == map[]
    ensures p.id !in Ids(s.products, ProductId)
    ensures p.subSubCategory == input.subSubCategory && p.createdAt == now
    ensures p.msrp == input.msrp.value && p.price == input.price.value
    ensures input.productType.None? ==> p.productType == Hardware
    ensures input.productType.Some? ==> ProductTypeValue(p.productType) == input.productType.value
    ensures input.stock.None? ==> p.stock == 100
    ensures input.stock.Some? ==> p.stock == input.stock.value
    ensures input.isInStock.None? ==> p.isInStock
    ensures input.isInStock.Some? ==> p.isInStock == input.isInStock.value
    ensures p.subCategory == input.subCategory && p.name == input.name && p.description == input.description.value
    ensures p.isActive == input.isActive && p.isFeatured == input.isFeatured
    ensures p.displayOrder == input.displayOrder
  {
    assert "msrp" !in ProductFieldErrors(input) && "price" !in ProductFieldErrors(input);
    assert "product_type" !in ProductFieldErrors(input) && "description" !in ProductFieldErrors(input);
    var kind := if input.productType.Some? then ParseProductType(input.productType.value).value
                else Hardware;
    Product(
      FreshId(s.products, ProductId), input.subSubCategory, input.subCategory, input.name,
      input.msrp.value, input.price.value,
      if input.stock.Some? then input.stock.value else 100,
      if input.isInStock.Some? then input.isInStock.value else true,
      kind, input.description.value, input.isActive, input.isFeatured, input.displayOrder, now)
  }

  /** Appending a product with a fresh key under an existing parent keeps the store valid. */
  lemma AddProductKeepsValid(s: Store, p: Product)
    ensures Valid(s) && p.id !in Ids(s.products, ProductId)
            && p.subSubCategory in Ids(s.subSubCategories, SubSubCategoryId)
            ==> Valid(s.(products := Upsert(s.products, p, ProductId)))
  {
    if Valid(s) && p.id !in Ids(s.products, ProductId)
       && p.subSubCategory in Ids(s.subSubCategories, SubSubCategoryId) {
      var r := s.(products := Upsert(s.products, p, ProductId));
      assert KeysUnique(r);
      assert Closed(r);
    }
  }
}

=== FILE: category_views.dfy ===
/**
 `ProductCategoryViewSet` and its response helpers: serializer selection by action, the
 list/retrieve/create/update/destroy handlers, and the `success_response` /
 `error_response` body shapes. HTTP routing and payload encoding are not modelled; a
 response is its status code and the keys of its JSON body.
 */
module CategoryViews {

  import opened Wrappers
  import opened Tables
  import opened CatalogStore
  import opened CatalogWrite
  import opened CatalogCascade
  import opened CatalogRead

  const HTTP_200_OK := 200
  const HTTP_201_CREATED := 201
  const HTTP_400_BAD_REQUEST := 400
  const HTTP_404_NOT_FOUND := 404

  /** A value in a response body. */
  datatype Field<D> = Flag(b: bool) | Text(s: string) | Null | Payload(d: D) | Errors(e: map<string, string>)

  datatype Response<D> = Response(code: int, body: map<string, Field<D>>)

  /** `success_response`: `status` true, the message and the data (null when absent). */
  function SuccessResponse<D>(data: Option<D>, message: string, code: int): (r: Response<D>)
    ensures r.code == code
    ensures r.body.Keys == {"status", "message", "data"}
    ensures r.body["status"] == Flag(true) && r.body["message"] == Text(message)
    ensures data.Some? ==> r.body["data"] == Payload(data.value)
    ensures data.None? ==> r.body["data"] == Null
  {
    Response(code, map["status" := Flag(true), "message" := Text(message),
                       "data" := if data.Some? then Payload(data.value) else Null])
  }

  /** `error_response`: `success` false, the message, null data, and `errors` only when there are any. */
  function ErrorResponse<D>(message: string, errors: map<string, string>, code: int): (r: Response<D>)
    ensures r.code == code
    ensures "errors" in r.body <==> errors != map[]
    ensures r.body.Keys - {"errors"} == {"success", "message", "data"}
    ensures r.body["success"] == Flag(false) && r.body["message"] == Text(message)
    ensures r.body["data"] == Null
    ensures errors != map[] ==> r.body["errors"] == Errors(errors)
  {
    var base := map["success" := Flag(false), "message" := Text(message), "data" := Null];
    Response(code, if errors != map[] then base["errors" := Errors(errors)] else base)
  }

  /**
   The two helpers disagree on the flag's key: a success body carries `status` and an
   error body carries `success`, so neither key is present in both shapes.
   */
  lemma ResponseShapesDisagree<D>(data: Option<D>, m1: string, m2: string, errors: map<string, string>,
                                  c1: int, c2: int)
    ensures "status" in SuccessResponse(data, m1, c1).body && "success" !in SuccessResponse(data, m1, c1).body
    ensures "success" in ErrorResponse<D>(m2, errors, c2).body && "status" !in ErrorResponse<D>(m2, errors, c2).body
  {
    var e := ErrorResponse<D>(m2, errors, c2);
    assert "status" !in e.body.Keys - {"errors"};
  }

  /** The DRF `Http404` body for a lookup that matches no row. */
  function NotFoundResponse<D>(): Response<D> {
    Response(HTTP_404_NOT_FOUND, map["detail" := Text("No ProductCategory matches the given query.")])
  }

  // ---------------------------------------------------------------- serializers

  datatype Action = List | Retrieve | Create | Update | PartialUpdate | Destroy

  datatype CategorySerializer = ProductCategoryWriteSerializer | ProductCategorySerializer

  /** `get_serializer_class`: the write serializer for the three writing actions only. */
  function SerializerFor(a: Action): (k: CategorySerializer)
    ensures k == ProductCategoryWriteSerializer <==> a in {Create, Update, PartialUpdate}
  {
    if a == Create || a == Update || a == PartialUpdate then ProductCategoryWriteSerializer
    else ProductCategorySerializer
  }

  /** What a handler's `serializer.data` holds. */
  datatype Payload = Listing(views: seq<CategoryView>) | Detail(view: CategoryView) | Written(category: Category)

  /** How a write request carries `name`: left out, sent as null, or sent as text. */
  datatype NameInput = Omitted | SentNull | Given(text: string)

  /**
   A write request. `slug` is whatever the client sent; the write serializer ignores it,
   since it lists `slug` as read-only.
   */
  datatype CategoryInput = CategoryInput(name: NameInput, slug: Option<string>,
                                         isActive: bool, displayOrder: int)

  /**
   The name a write leaves stored over `current`: an absent field keeps it, null clears it,
   text replaces it. A create starts from the column's default, NULL.
   */
  function NameAfter(current: Option<string>, n: NameInput): Option<string> {
    match n
    case Omitted => current
    case SentNull => None
    case Given(t) => Some(t)
  }

  /** The write serializer's field validation (`max_length=255` on `name`). */
  function CategoryInputErrors(input: CategoryInput): (e: map<string, string>)
    ensures e != map[] <==> input.name.Given? && |input.name.text| > 255
    ensures e != map[] ==> e.Keys == {"name"}
  {
    if input.name.Given? && |input.name.text| > 255 then
      var e := map["name" := "Ensure this field has no more than 255 characters."];
      assert "name" in e;
      e
    else map[]
  }

  /** What a handler does: reply with a new store, return nothing, or raise a database error. */
  datatype ViewOutcome =
    | Replied(store: Store, response: Response<Payload>)
    | ReturnedNone
    | Raised(error: StoreError)

  /** `get_object`: the category with this slug in the (possibly filtered) queryset. */
  function FindBySlug(t: seq<Category>, slug: string): (r: Option<Category>)
    ensures r.Some? ==> r.value in t && r.value.slug == slug
    ensures r.None? ==> forall x :: x in t ==> x.slug != slug
  {
    if t == [] then None
    else if t[0].slug == slug then Some(t[0])
    else FindBySlug(t[1..], slug)
  }

  // ---------------------------------------------------------------- handlers

  /** The nested read view of each category, in order. */
  function ViewsOf(s: Store, cats: seq<Category>): (vs: seq<CategoryView>)
    ensures |vs| == |cats|
    ensures forall i :: 0 <= i < |vs| ==> vs[i].category == cats[i] && CategoryViewSound(s, vs[i])
  {
    var vs := seq(|cats|, i requires 0 <= i < |cats| => CategoryViewOf(s, cats[i]));
    assert forall i :: 0 <= i < |vs| ==> CategoryViewSound(s, vs[i]) by {
      forall i | 0 <= i < |vs| ensures CategoryViewSound(s, vs[i]) {
        CategoryViewIsSound(s, cats[i]);
      }
    }
    vs
  }

  /** `list`: every category of the queryset, in its order, with status 200. */
  function ListCategories(s: Store, isActive: Option<string>): (r: Response<Payload>)
    ensures r.code == HTTP_200_OK && "data" in r.body && "status" in r.body && r.body["status"] == Flag(true)
    ensures r.body["data"] == Payload(Listing(ViewsOf(s, CategoryQueryset(s, isActive))))
  {
    SuccessResponse(Some(Listing(ViewsOf(s, CategoryQueryset(s, isActive)))), "Success", HTTP_200_OK)
  }

  /** `retrieve`: the category with this slug in the queryset, or 404. */
  function RetrieveCategory(s: Store, isActive: Option<string>, slug: string): (r: Response<Payload>)
    ensures FindBySlug(CategoryQueryset(s, isActive), slug).None? <==> r.code == HTTP_404_NOT_FOUND
    ensures r.code != HTTP_404_NOT_FOUND ==>
      && r.code == HTTP_200_OK
      && "data" in r.body && r.body["data"].Payload? && r.body["data"].d.Detail?
      && r.body["data"].d.view.category.slug == slug
      && r.body["data"].d.view.category in CategoryQueryset(s, isActive)
      && CategoryViewSound(s, r.body["data"].d.view)
      && r.body["data"].d.view == CategoryViewOf(s, FindBySlug(CategoryQueryset(s, isActive), slug).value)
  {
    match FindBySlug(CategoryQueryset(s, isActive), slug)
    case None => NotFoundResponse()
    case Some(c) =>
      CategoryViewIsSound(s, c);
      SuccessResponse(Some(Detail(CategoryViewOf(s, c))), "Category retrieved successfully", HTTP_200_OK)
  }

  /** The row a create stores before `save()` derives the slug: the client's slug is dropped. */
  function NewCategory(s: Store, input: CategoryInput): Category {
    Category(FreshId(s.categories, CategoryId), NameAfter(None, input.name), "", input.isActive, input.displayOrder)
  }

  /** The row an update stores before `save()`: the fields the request sets, over the stored row. */
  function UpdatedCategory(c: Category, input: CategoryInput): Category {
    c.(name := NameAfter(c.name, input.name), isActive := input.isActive, displayOrder := input.displayOrder)
  }

  /**
   `create` as written: on valid input save and answer 201; on invalid input the handler
   falls off its end and returns nothing, which the framework turns into a server error.
   */
  function CreateCategoryAsWritten(s: Store, input: CategoryInput, slugify: string -> string)
    : (r: ViewOutcome)
    ensures CategoryInputErrors(input) != map[] ==> r == ReturnedNone
    ensures CategoryInputErrors(input) == map[] ==> r != ReturnedNone
  {
    if CategoryInputErrors(input) != map[] then ReturnedNone
    else
      match SaveCategory(s, NewCategory(s, input), slugify)
      case Err(e) => Raised(e)
      case Ok(s') =>
        var saved := NewCategory(s, input).(slug := SlugOnSave("", NameAfter(None, input.name), slugify));
        Replied(s', SuccessResponse(Some(Written(saved)), "Category created successfully", HTTP_201_CREATED))
  }

  /** An invalid create request gets no response at all from the handler as written. */
  lemma CreateAsWrittenDropsInvalid(s: Store, slugify: string -> string)
    ensures CreateCategoryAsWritten(s, CategoryInput(Given(seq(256, i => 'a')), None, true, 0), slugify)
         == ReturnedNone
  {
  }

  /**
   `create`, answering invalid input the way `update` does: a 400 error response carrying
   the field errors, with nothing saved. Valid input is saved with a slug derived from
   the name, whatever slug the client sent, and answered with 201.
   */
  function CreateCategory(s: Store, input: CategoryInput, slugify: string -> string): (r: ViewOutcome)
    ensures r != ReturnedNone
    ensures CategoryInputErrors(input) != map[] ==>
      r == Replied(s, ErrorResponse("Failed to create category", CategoryInputErrors(input), HTTP_400_BAD_REQUEST))
    ensures r.Replied? && r.response.code == HTTP_201_CREATED ==>
      && "data" in r.response.body
      && r.response.body["data"].Payload? && r.response.body["data"].d.Written?
      && var c := r.response.body["data"].d.category;
         && c.id !in Ids(s.categories, CategoryId)
         && c.slug == slugify(NameText(NameAfter(None, input.name)))
         && (input.name.Given? ==> c.name == Some(input.name.text))
         && (!input.name.Given? ==> c.name == None)
         && c.isActive == input.isActive && c.displayOrder == input.displayOrder
         && c in r.store.categories
    ensures CategoryInputErrors(input) == map[] && !r.Raised? ==>
      && r.Replied? && r.response.code == HTTP_201_CREATED
      && SaveCategory(s, NewCategory(s, input), slugify) == Ok(r.store)
    ensures r.Replied? && Valid(s) ==> Valid(r.store)
    ensures r.Raised? <==>
      (CategoryInputErrors(input) == map[]
       && exists x :: x in s.categories && x.slug == slugify(NameText(NameAfter(None, input.name))))
    ensures r.Raised? ==> r.error == DuplicateSlug(slugify(NameText(NameAfter(None, input.name))))
  {
    if CategoryInputErrors(input) != map[] then
      Replied(s, ErrorResponse("Failed to create category", CategoryInputErrors(input), HTTP_400_BAD_REQUEST))
    else
      var c := NewCategory(s, input);
      assert forall x :: x in s.categories ==> x.id != c.id;
      match SaveCategory(s, c, slugify)
      case Err(e) => Raised(e)
      case Ok(s') =>
        var saved := c.(slug := SlugOnSave("", c.name, slugify));
        Replied(s', SuccessResponse(Some(Written(saved)), "Category created successfully", HTTP_201_CREATED))
  }

  /** The corrected create differs from the one as written exactly on invalid input. */
  lemma CreateCorrectionAgrees(s: Store, input: CategoryInput, slugify: string -> string)
    ensures CategoryInputErrors(input) == map[] ==>
      CreateCategory(s, input, slugify) == CreateCategoryAsWritten(s, input, slugify)
  {
  }

  /** A client-supplied slug has no effect on what a create stores or answers. */
  lemma CreateIgnoresClientSlug(s: Store, input: CategoryInput, other: Option<string>,
                                slugify: string -> string)
    ensures CreateCategory(s, input.(slug := other), slugify) == CreateCategory(s, input, slugify)
  {
  }

  /**
   `update`: look the category up by slug (404 when absent), then on invalid input answer
   400 with the errors and save nothing; on valid input apply the fields, keep the slug,
   save and answer 200.
   */
  function UpdateCategory(s: Store, isActive: Option<string>, slug: string, input: CategoryInput,
                          slugify: string -> string): (r: ViewOutcome)
    ensures r != ReturnedNone
    ensures FindBySlug(CategoryQueryset(s, isActive), slug).None? ==> r == Replied(s, NotFoundResponse())
    ensures FindBySlug(CategoryQueryset(s, isActive), slug).Some? && CategoryInputErrors(input) != map[] ==>
      && r.Replied? && r.store == s
      && r.response.code == HTTP_400_BAD_REQUEST
      && "errors" in r.response.body
      && r.response.body["errors"] == Errors(CategoryInputErrors(input))
    ensures r.Replied? && r.response.code == HTTP_200_OK ==>
      && "data" in r.response.body
      && r.response.body["data"].Payload? && r.response.body["data"].d.Written?
      && var c := r.response.body["data"].d.category;
         && c in r.store.categories
         && c.isActive == input.isActive && c.displayOrder == input.displayOrder
         && (input.name.Given? ==> c.name == Some(input.name.text))
         && (input.name.SentNull? ==> c.name == None)
         && (slug != "" ==> c.slug == slug)
    ensures var f := FindBySlug(CategoryQueryset(s, isActive), slug);
      f.Some? && CategoryInputErrors(input) == map[] ==>
        var u := UpdatedCategory(f.value, input);
        && (r.Raised? <==> TakenByOther(s.categories, u.id, SlugOnSave(u.slug, u.name, slugify), CategoryId, CategorySlug))
        && (r.Raised? ==> r.error == DuplicateSlug(SlugOnSave(u.slug, u.name, slugify)))
        && (!r.Raised? ==>
              && r.Replied? && r.response.code == HTTP_200_OK
              && SaveCategory(s, u, slugify) == Ok(r.store)
              && "data" in r.response.body
              && r.response.body["data"] == Payload(Written(u.(slug := SlugOnSave(u.slug, u.name, slugify)))))
    ensures r.Replied? && Valid(s) ==> Valid(r.store)
  {
    var qs := CategoryQueryset(s, isActive);
    match FindBySlug(qs, slug)
    case None => Replied(s, NotFoundResponse())
    case Some(c) =>
      if CategoryInputErrors(input) != map[] then
        Replied(s, ErrorResponse("Failed to update category", CategoryInputErrors(input), HTTP_400_BAD_REQUEST))
      else
        var changed := UpdatedCategory(c, input);
        match SaveCategory(s, changed, slugify)
        case Err(e) => Raised(e)
        case Ok(s') =>
          var saved := changed.(slug := SlugOnSave(changed.slug, changed.name, slugify));
          Replied(s', SuccessResponse(Some(Written(saved)), "Category updated successfully", HTTP_200_OK))
  }

  /** An unfiltered queryset holds every stored category. */
  lemma QuerysetHoldsAll(s: Store, x: Category)
    requires x in s.categories
    ensures x in CategoryQueryset(s, None)
  {
    assert x in multiset(s.categories);
    assert x in multiset(CategoryQueryset(s, None));
  }

  /** After a successful update, the category is still found under its slug, with the new fields. */
  lemma UpdateThenRetrieve(s: Store, isActive: Option<string>, slug: string, input: CategoryInput,
                           slugify: string -> string)
    requires Valid(s) && slug != ""
    requires UpdateCategory(s, isActive, slug, input, slugify).Replied?
    requires UpdateCategory(s, isActive, slug, input, slugify).response.code == HTTP_200_OK
    ensures var r := UpdateCategory(s, isActive, slug, input, slugify).store;
      && RetrieveCategory(r, None, slug).code == HTTP_200_OK
      && FindBySlug(CategoryQueryset(r, None), slug).value.isActive == input.isActive
      && FindBySlug(CategoryQueryset(r, None), slug).value.displayOrder == input.displayOrder
  {
    var out := UpdateCategory(s, isActive, slug, input, slugify);
    var r := out.store;
    var c := out.response.body["data"].d.category;
    QuerysetHoldsAll(r, c);
    var found := FindBySlug(CategoryQueryset(r, None), slug).value;
    QuerysetWithin(r, None, found);
    SameKeySameRow(r.categories, found, c, CategorySlug);
  }

  /**
   `destroy`: look the category up by slug (404 when absent), then delete it together with
   everything that descends from it and answer 200 with no data.
   */
  function DestroyCategory(s: Store, isActive: Option<string>, slug: string): (r: ViewOutcome)
    ensures r.Replied?
    ensures FindBySlug(CategoryQueryset(s, isActive), slug).None? ==> r == Replied(s, NotFoundResponse())
    ensures FindBySlug(CategoryQueryset(s, isActive), slug).Some? ==>
      && r.response == SuccessResponse(None, "Category deleted successfully", HTTP_200_OK)
      && FindBySlug(CategoryQueryset(s, isActive), slug).value.id !in Ids(r.store.categories, CategoryId)
      && SubStore(r.store, s) && Closed(r.store)
      && r.store == Delete(s, Categories, FindBySlug(CategoryQueryset(s, isActive), slug).value.id)
    ensures Valid(s) ==> Valid(r.store)
  {
    match FindBySlug(CategoryQueryset(s, isActive), slug)
    case None => Replied(s, NotFoundResponse())
    case Some(c) =>
      Replied(Delete(s, Categories, c.id), SuccessResponse(None, "Category deleted successfully", HTTP_200_OK))
  }

  /** Every category the queryset yields is a stored category. */
  lemma QuerysetWithin(s: Store, isActive: Option<string>, x: Category)
    requires x in CategoryQueryset(s, isActive)
    ensures x in s.categories
  {
    var qs := CategoryQueryset(s, isActive);
    assert x in multiset(qs);
    assert x in multiset(s.categories);
  }

  /** After a delete the slug is free: any later lookup of it, with any filter, finds nothing. */
  lemma DestroyThenNotFound(s: Store, isActive: Option<string>, slug: string, again: Option<string>)
    requires Valid(s)
    requires FindBySlug(CategoryQueryset(s, isActive), slug).Some?
    ensures FindBySlug(CategoryQueryset(DestroyCategory(s, isActive, slug).store, again), slug).None?
  {
    var c := FindBySlug(CategoryQueryset(s, isActive), slug).value;
    var r := DestroyCategory(s, isActive, slug).store;
    QuerysetWithin(s, isActive, c);
    var found := FindBySlug(CategoryQueryset(r, again), slug);
    if found.Some? {
      var y := found.value;
      QuerysetWithin(r, again, y);
      assert y in s.categories;
      SameKeySameRow(s.categories, y, c, CategorySlug);
      assert false;
    }
  }
}

=== FILE: ordering.dfy ===
/**
 Filtering and ordering of query results.

 A queryset `filter(...).order_by(...)` is modelled as `SortBy(Filter(rows, keep), le)`:
 the filter keeps exactly the rows satisfying the predicate, and the sort returns a
 permutation of its input that is ordered by `le`. The database leaves the relative
 order of rows with equal sort keys unspecified; the sort here is stable, so such rows
 keep their table order.
 */
module Ordering {

  import opened Wrappers

  /** `le` is total and transitive: the shape of every `order_by` comparison. */
  ghost predicate TotalPreorder<T(!new)>(le: (T, T) -> bool) {
    && (forall a, b :: le(a, b) || le(b, a))
    && (forall a, b, c :: le(a, b) && le(b, c) ==> le(a, c))
  }

  /** Every earlier element is `le` every later one. */
  predicate SortedBy<T>(s: seq<T>, le: (T, T) -> bool) {
    forall i, j :: 0 <= i < j < |s| ==> le(s[i], s[j])
  }

  /** The rows of `s` for which `keep` holds, in their original order. */
  function Filter<T(!new)>(s: seq<T>, keep: T -> bool): (r: seq<T>)
    ensures forall x :: x in r <==> x in s && keep(x)
    ensures forall x :: multiset(r)[x] == if keep(x) then multiset(s)[x] else 0
    ensures |r| <= |s|
    ensures (forall x :: x in s ==> keep(x)) ==> r == s
  {
    if s == [] then []
    else
      assert s == [s[0]] + s[1..];
      var rest := Filter(s[1..], keep);
      if keep(s[0]) then [s[0]] + rest else rest
  }

  /** Places `x` into the sorted sequence `s` before the first element it is `le` to. */
  function Insert<T(!new)>(x: T, s: seq<T>, le: (T, T) -> bool): (r: seq<T>)
    requires TotalPreorder(le)
    requires SortedBy(s, le)
    ensures SortedBy(r, le)
    ensures multiset(r) == multiset(s) + multiset{x}
  {
    if s == [] then [x]
    else if le(x, s[0]) then [x] + s
    else
      assert s == [s[0]] + s[1..];
      var rest := Insert(x, s[1..], le);
      assert forall e :: e in rest ==> e == x || e in s[1..] by {
        forall e | e in rest ensures e == x || e in s[1..] {
          assert e in multiset(rest);
        }
      }
      assert forall e :: e in rest ==> le(s[0], e);
      var r := [s[0]] + rest;
      assert forall j :: 0 < j < |r| ==> r[j] == rest[j - 1];
      r
  }

  /** Insertion sort: an ordered permutation of `s`. */
  function SortBy<T(!new)>(s: seq<T>, le: (T, T) -> bool): (r: seq<T>)
    requires TotalPreorder(le)
    ensures SortedBy(r, le)
    ensures multiset(r) == multiset(s)
    ensures |r| == |s|
  {
    if s == [] then []
    else
      assert s == [s[0]] + s[1..];
      Insert(s[0], SortBy(s[1..], le), le)
  }

  /** Lexicographic order on strings, by code point (a binary collation). */
  predicate StrLe(a: string, b: string) {
    if a == [] then true
    else if b == [] then false
    else a[0] < b[0] || (a[0] == b[0] && StrLe(a[1..], b[1..]))
  }

  lemma {:induction false} StrLeTotal(a: string, b: string)
    ensures StrLe(a, b) || StrLe(b, a)
  {
    if a != [] && b != [] && a[0] == b[0] {
      StrLeTotal(a[1..], b[1..]);
    }
  }

  lemma {:induction false} StrLeTransitive(a: string, b: string, c: string)
    requires StrLe(a, b) && StrLe(b, c)
    ensures StrLe(a, c)
  {
    if a != [] && b != [] && c != [] && a[0] == b[0] && b[0] == c[0] {
      StrLeTransitive(a[1..], b[1..], c[1..]);
    }
  }

  /** Order on a nullable name column: NULL sorts before every string. */
  predicate NameLe(a: Option<string>, b: Option<string>) {
    match (a, b)
    case (None, _) => true
    case (Some(_), None) => false
    case (Some(x), Some(y)) => StrLe(x, y)
  }

  /** The `order_by('display_order', 'name')` comparison. */
  predicate OrderThenNameLe(o1: int, n1: Option<string>, o2: int, n2: Option<string>) {
    o1 < o2 || (o1 == o2 && NameLe(n1, n2))
  }

  lemma OrderThenNameTotal(o1: int, n1: Option<string>, o2: int, n2: Option<string>)
    ensures OrderThenNameLe(o1, n1, o2, n2) || OrderThenNameLe(o2, n2, o1, n1)
  {
    if n1.Some? && n2.Some? {
      StrLeTotal(n1.value, n2.value);
    }
  }

  lemma OrderThenNameTransitive(o1: int, n1: Option<string>, o2: int, n2: Option<string>,
                                o3: int, n3: Option<string>)
    requires OrderThenNameLe(o1, n1, o2, n2) && OrderThenNameLe(o2, n2, o3, n3)
    ensures OrderThenNameLe(o1, n1, o3, n3)
  {
    if n1.Some? && n2.Some? && n3.Some? && o1 == o2 == o3 {
      StrLeTransitive(n1.value, n2.value, n3.value);
    }
  }
}

=== FILE: tables.dfy ===
/**
 In-memory tables. A table is a sequence of records, each carrying its own primary key;
 generic operations take the record's key accessor as a function value.
 */
module Tables {

  import opened Wrappers
  import opened Ordering

  /** An opaque primary key (a UUID in the database). */
  type Id = nat

  /** The primary keys present in a table. */
  function Ids<T(==)>(t: seq<T>, idOf: T -> Id): set<Id> {
    set x | x in t :: idOf(x)
  }

  /** No two rows of `t` agree on `keyOf`: the shape of a `unique=True` column. */
  predicate UniqueBy<T, K(==)>(t: seq<T>, keyOf: T -> K) {
    forall i, j :: 0 <= i < j < |t| ==> keyOf(t[i]) != keyOf(t[j])
  }

  /** Some row other than the one with key `id` already holds `key` in the `keyOf` column. */
  predicate TakenByOther<T(==), K(==)>(t: seq<T>, id: Id, key: K, idOf: T -> Id, keyOf: T -> K) {
    exists x :: x in t && idOf(x) != id && keyOf(x) == key
  }

  /** Point lookup by primary key (`objects.get(pk=id)`). */
  function Find<T(==)>(t: seq<T>, id: Id, idOf: T -> Id): (r: Option<T>)
    ensures r.Some? <==> id in Ids(t, idOf)
    ensures r.Some? ==> r.value in t && idOf(r.value) == id
  {
    if t == [] then None
    else if idOf(t[0]) == id then Some(t[0])
    else
      assert Ids(t, idOf) == {idOf(t[0])} + Ids(t[1..], idOf) by {
        assert t == [t[0]] + t[1..];
      }
      Find(t[1..], id, idOf)
  }

  /** `save()`: an UPDATE of the row with the same key, in place, or an INSERT at the end. */
  function Upsert<T(==)>(t: seq<T>, x: T, idOf: T -> Id): (r: seq<T>)
    ensures x in r
    ensures forall y :: y in r ==> y == x || (y in t && idOf(y) != idOf(x))
    ensures forall y :: y in t && idOf(y) != idOf(x) ==> y in r
    ensures Ids(r, idOf) == Ids(t, idOf) + {idOf(x)}
    ensures UniqueBy(t, idOf) ==> UniqueBy(r, idOf)
    ensures idOf(x) !in Ids(t, idOf) ==> r == t + [x]
  {
    if idOf(x) in Ids(t, idOf) then
      var r := seq(|t|, i requires 0 <= i < |t| => if idOf(t[i]) == idOf(x) then x else t[i]);
      assert forall i :: 0 <= i < |t| ==> idOf(r[i]) == idOf(t[i]);
      assert Ids(r, idOf) == Ids(t, idOf) by {
        forall k | k in Ids(t, idOf) ensures k in Ids(r, idOf) {
          var y :| y in t && idOf(y) == k;
          var i :| 0 <= i < |t| && t[i] == y;
          assert r[i] in r;
        }
      }
      r
    else
      t + [x]
  }

  /** Saving a row whose `keyOf` value no other row holds keeps that column unique. */
  lemma UpsertKeepsUnique<T, K>(t: seq<T>, x: T, idOf: T -> Id, keyOf: T -> K)
    ensures UniqueBy(t, idOf) && UniqueBy(t, keyOf) && !TakenByOther(t, idOf(x), keyOf(x), idOf, keyOf)
            ==> UniqueBy(Upsert(t, x, idOf), keyOf)
  {
    var r := Upsert(t, x, idOf);
    if !(UniqueBy(t, idOf) && UniqueBy(t, keyOf) && !TakenByOther(t, idOf(x), keyOf(x), idOf, keyOf)) {
    } else if idOf(x) in Ids(t, idOf) {
      forall i, j | 0 <= i < j < |r| ensures keyOf(r[i]) != keyOf(r[j]) {
        if idOf(t[i]) == idOf(x) {
          assert idOf(t[j]) != idOf(x);
          assert t[j] in t;
        } else if idOf(t[j]) == idOf(x) {
          assert t[i] in t;
        }
      }
    } else {
      forall i, j | 0 <= i < j < |r| ensures keyOf(r[i]) != keyOf(r[j]) {
        if j == |t| {
          assert r[i] == t[i] && t[i] in t;
          assert idOf(t[i]) in Ids(t, idOf);
        }
      }
    }
  }

  /** A key no row of `t` uses: one more than the largest key present. */
  function FreshId<T(==)>(t: seq<T>, idOf: T -> Id): (r: Id)
    ensures r !in Ids(t, idOf)
    ensures forall x :: x in t ==> idOf(x) < r
  {
    if t == [] then 0
    else
      assert t == [t[0]] + t[1..];
      var rest := FreshId(t[1..], idOf);
      if idOf(t[0]) < rest then rest else idOf(t[0]) + 1
  }

  /** Two rows of a table with unique keys that share a key are the same row. */
  lemma SameKeySameRow<T, K>(t: seq<T>, x: T, y: T, keyOf: T -> K)
    requires UniqueBy(t, keyOf)
    requires x in t && y in t && keyOf(x) == keyOf(y)
    ensures x == y
  {
    var i :| 0 <= i < |t| && t[i] == x;
    var j :| 0 <= j < |t| && t[j] == y;
    if i < j || j < i {
      assert false;
    }
  }

  /** The head of a key-unique table shares its key with no later row. */
  lemma HeadKeyFresh<T, K>(t: seq<T>, keyOf: T -> K)
    requires UniqueBy(t, keyOf) && t != []
    ensures forall y :: y in t[1..] ==> keyOf(y) != keyOf(t[0])
  {
    forall y | y in t[1..] ensures keyOf(y) != keyOf(t[0]) {
      var k :| 0 <= k < |t[1..]| && t[1..][k] == y;
      assert t[k + 1] == y;
    }
  }

  /** Prepending a row with a fresh key to a key-unique sequence keeps it key-unique. */
  lemma ConsKeepsUnique<T, K>(x: T, s: seq<T>, keyOf: T -> K)
    requires UniqueBy(s, keyOf)
    requires forall y :: y in s ==> keyOf(y) != keyOf(x)
    ensures UniqueBy([x] + s, keyOf)
  {
    var r := [x] + s;
    forall i, j | 0 <= i < j < |r| ensures keyOf(r[i]) != keyOf(r[j]) {
      assert r[j] == s[j - 1];
      if i > 0 {
        assert r[i] == s[i - 1];
      } else {
        assert s[j - 1] in s;
      }
    }
  }

  /** Deleting rows never makes a unique column non-unique. */
  lemma {:induction false} FilterKeepsUnique<T(!new), K>(t: seq<T>, keep: T -> bool, keyOf: T -> K)
    requires UniqueBy(t, keyOf)
    ensures UniqueBy(Filter(t, keep), keyOf)
  {
    if t != [] {
      assert t == [t[0]] + t[1..];
      assert UniqueBy(t[1..], keyOf) by {
        forall i, j | 0 <= i < j < |t[1..]| ensures keyOf(t[1..][i]) != keyOf(t[1..][j]) {
          assert t[1..][i] == t[i + 1] && t[1..][j] == t[j + 1];
        }
      }
      FilterKeepsUnique(t[1..], keep, keyOf);
      var rest := Filter(t[1..], keep);
      if keep(t[0]) {
        HeadKeyFresh(t, keyOf);
        ConsKeepsUnique(t[0], rest, keyOf);
      }
    }
  }

  /**
   When the rows `survivors` are the rows of a key-unique table `t` outside `gone`, a key
   `v` present in `t` is still present exactly when the row holding it is not in `gone`.
   */
  lemma SurvivingKey<T>(t: seq<T>, survivors: seq<T>, idOf: T -> Id, gone: T -> bool, v: Id)
    requires UniqueBy(t, idOf)
    requires v in Ids(t, idOf)
    requires forall p :: p in survivors <==> p in t && !gone(p)
    ensures v in Ids(survivors, idOf) <==> !(exists p :: p in t && idOf(p) == v && gone(p))
  {
    var w :| w in t && idOf(w) == v;
    if exists p :: p in t && idOf(p) == v && gone(p) {
      var p :| p in t && idOf(p) == v && gone(p);
      forall q | q in survivors && idOf(q) == v ensures false {
        SameKeySameRow(t, p, q, idOf);
      }
    } else {
      assert w in survivors;
    }
  }

  /** The rows of `t` whose parent key is in `parents`, in table order. */
  function KeepChildren<T(!new)>(t: seq<T>, parentOf: T -> Id, parents: set<Id>): (r: seq<T>)
    ensures forall x :: x in r <==> x in t && parentOf(x) in parents
    ensures (forall x :: x in t ==> parentOf(x) in parents) ==> r == t
  {
    Filter(t, (x: T) => parentOf(x) in parents)
  }

  lemma KeepChildrenKeepsUnique<T(!new), K>(t: seq<T>, parentOf: T -> Id, parents: set<Id>, keyOf: T -> K)
    requires UniqueBy(t, keyOf)
    ensures UniqueBy(KeepChildren(t, parentOf, parents), keyOf)
  {
    FilterKeepsUnique(t, (x: T) => parentOf(x) in parents, keyOf);
  }

  /**
   One level of a cascade: when the surviving parents are the parents outside `gone`, and
   the surviving children are the children whose parent survived, a child survives
   exactly when its parent is not in `gone`.
   */
  lemma CascadeStep<P, C>(parents: seq<P>, parentsAfter: seq<P>, idOf: P -> Id, gone: P -> bool,
                          children: seq<C>, childrenAfter: seq<C>, link: C -> Id)
    requires UniqueBy(parents, idOf)
    requires forall p :: p in parentsAfter <==> p in parents && !gone(p)
    requires forall c :: c in children ==> link(c) in Ids(parents, idOf)
    requires forall c :: c in childrenAfter <==> c in children && link(c) in Ids(parentsAfter, idOf)
    ensures forall c :: c in childrenAfter <==>
      c in children && !(exists p :: p in parents && idOf(p) == link(c) && gone(p))
  {
    forall c | c in children
      ensures link(c) in Ids(parentsAfter, idOf) <==> !(exists p :: p in parents && idOf(p) == link(c) && gone(p))
    {
      SurvivingKey(parents, parentsAfter, idOf, gone, link(c));
    }
  }
}

=== FILE: wrappers.dfy ===
/** Failure-compatible wrappers shared by the catalog and account modules. */
module Wrappers {

  /** A value that may be absent (a nullable column, a missing request field). */
  datatype Option<+T> = None | Some(value: T)

  /** The outcome of an operation that either produces a value or fails with an error. */
  datatype Result<+T, +E> = Ok(value: T) | Err(error: E)
}
